=== FILE: README.md ===
# ComfyUI Context Generator Pro — a Dafny model of its core

The userscript `111.js` adds image generation to a chat front end. It sends
each image request to a ComfyUI server. One generation runs through these steps:

1. it renders the last few chat messages as `Speaker: text` lines (`getContext`);
2. when switched on, it uploads the current character's avatar to the server (`uploadCharacterImage`);
3. it fills placeholders in a stored workflow template and parses the result (`processWorkflow`):
   - `$Seed$`, `$Width$`, `$Height$` and `$LLMCONTEXT$` are filled in;
   - image inputs marked `$CharImage$` are pointed at the uploaded avatar;
4. it queues the workflow under an `isGenerating` guard (`generate`);
5. it polls the history endpoint until an image appears or two minutes pass (`pollResult`);
6. it shows the image (`displayImage`). It either replaces the last image the script showed, or appends a new one.

The model is made of pure functions over immutable data. One loop (the poll)
is written as a method. Each part of the script is a module:

| module | file | models |
|---|---|---|
| `Decimal` | decimal.dfy | how numbers from `parseInt` are written out as text |
| `Text` | text.dfy | `includes`, `join`; `split` is used only to read a joined text back |
| `Json` | json.dfy | parsed values, member lookup and update, `JSON.stringify` |
| `Substitution` | substitution.dfy | global `replace` with a string replacement, including its `$` patterns |
| `ContextExtractor` | context.dfy | `getContext` |
| `Upload` | upload.dfy | `uploadCharacterImage` |
| `Workflow` | workflow.dfy | `processWorkflow` |
| `Poll` | poll.dfy | `pollResult` |
| `Display` | display.dfy | `displayImage` |
| `Generation` | generate.dfy | `generate` and its guard |

Some inputs come from outside the script:
- network answers;
- clock readings;
- the `Math.random()` draw;
- `JSON.parse`.

Each is a parameter: a result value, a sequence of readings, or a
function `string -> Option<Json>`.

Behaviour of the script worth knowing:
- A context depth of 0 does not give an empty context. `slice(-0)` is `slice(0)`, so the whole history is used. A negative depth drops messages from the front.
- Nothing stops an older poll loop from displaying its image. `generate` clears `isGenerating` in its `finally` block as soon as the job is queued, because the poll loop runs on without being awaited. Two loops can therefore be live at once.
- Placeholder substitution works on the serialised text before parsing. It can change node ids, and a context that mentions a placeholder puts that placeholder back into the text. Even an empty context can do this: removing `$LLMCONTEXT$` from between `$Se` and `ed$` leaves `$Seed$`, which no pass replaces, because the context pass runs last (`Workflow.EmptyContextSplicesToken`). Only the `$CharImage$` rewrite keeps the node ids.
- At the timeout the loop stops without telling the user.
- `uploadCharacterImage` reads `characters[this_chid].avatar` outside its `try` block. A missing character entry therefore rejects the call instead of returning `null`, and `generate` reports it as an error.
- The avatar fetch never checks `res.ok`. An HTTP error page is uploaded like any image.
- The context escape collapses line breaks and escapes quotes. It does not escape backslashes, so a context ending in `\` breaks the template's JSON string (`Workflow.BackslashBreaksJsonString`). It does not escape tabs or other control characters either, and JSON does not allow them raw in a string, so the parse fails (`Workflow.TabBreaksJsonString`).

## Model

| member | source | states |
|---|---|---|
| `ContextExtractor.SliceStart` | 111.js:57 | the start index of `slice` always lies within the array |
| `ContextExtractor.Window` | 111.js:57 | the window is a suffix of the chat, no longer than the chat |
| `ContextExtractor.WindowSize` | 111.js:57 | depth 0 or NaN keeps the whole history; a positive depth N keeps min(N, length) messages; a negative depth drops that many from the front |
| `ContextExtractor.StripTags` | 111.js:60 | after the tag strip no `<` is followed by a `>`, and every remaining character comes from the message |
| `ContextExtractor.StripTagsPlainPrefix` | 111.js:60 | text before the first `<` is copied unchanged by the strip |
| `ContextExtractor.StripTagsWholeTag` | 111.js:60 | a whole tag, from `<` to the first `>` after it, is removed and the strip carries on after it |
| `ContextExtractor.StripTagsKeepsTagFree` | 111.js:60 | text with no tag in it passes through the strip unchanged |
| `ContextExtractor.StripTagsIdempotent` | 111.js:60 | stripping tags twice gives the same text as stripping once |
| `ContextExtractor.FlattenNewlines` | 111.js:60 | each line feed becomes a space; the length and every other character, including carriage returns, stay |
| `ContextExtractor.CleanText` | 111.js:60 | the cleaned message text has no tag and no line feed; it is the tag-stripped text with each line feed turned into a space |
| `ContextExtractor.CleanTextPlain` | 111.js:60 | a message without `<` keeps its length and every character except line feeds |
| `ContextExtractor.Label` | 111.js:59 | the speaker label is never empty: `User` for the user, else the character's name, else `Char` when the name is empty |
| `ContextExtractor.GetContext` | 111.js:55-63 | an empty window, from an empty chat or a negative depth that drops every message, gives the empty string; every rendered line of the window occurs in the context; when no name holds a line feed, splitting the context on line feeds gives back exactly the window's lines |
| `ContextExtractor.ContextLines` | 111.js:58-62 | the context read back line by line has one `Label: text` line per message of the window, in chat order, with the cleaned text; a positive depth N gives at most N lines |
| `Decimal.NatText` | 111.js:97 | a number is written as a non-empty string of decimal digits, with no leading zero except for 0 itself |
| `Decimal.NatTextValue` | 111.js:97 | the digits written for a number denote that number |
| `Decimal.NatTextInjective` | 111.js:75 | two different numbers never have the same decimal text |
| `Decimal.JsIntText` | 111.js:97-99 | NaN is written `NaN` and a negative number gets a leading `-`; the text uses only digits, `-`, `N` and `a` |
| `Text.JoinContainsPart` | 111.js:62 | every joined line occurs in the joined text |
| `Text.SplitJoin` | 111.js:62 | splitting a join of one or more parts on its separator gives the parts back when no part holds the separator |
| `Json.Get` | 111.js:110 | a lookup misses exactly when no member has the key, and a hit returns the value of a member with that key |
| `Json.Put` | 111.js:111 | after an assignment the key reads the new value and every other key reads as before; an existing key keeps its position and the member order |
| `Json.EscapeChar` | 111.js:109 | `JSON.stringify` writes quotes, backslashes and control characters as backslash escapes and every other character as itself |
| `Json.EscapeStringPlain` | 111.js:109 | a string with nothing to escape is written verbatim |
| `Json.Stringify` | 111.js:109 | the serialised text is never empty; a string is written between quotes, an array between brackets, an object between braces |
| `Json.StringifyShowsMember` | 111.js:109 | the serialised form of an object contains the serialised form of each member value |
| `Substitution.ExpandPlain` | 111.js:97-100 | a replacement string without `$$`, `$&`, `` $` `` or `$'` is inserted literally |
| `Substitution.ReplaceAllAbsent` | 111.js:97-100 | a global replace of a token the text does not contain changes nothing |
| `Substitution.ReplaceAllRemovesToken` | 111.js:97-100 | a global replace by non-empty, `$`-free text that shares no character with the token leaves no occurrence of the token |
| `Substitution.ReplaceAllKeepsAbsent` | 111.js:97-100 | a global replace by non-empty, `$`-free text creates no occurrence of a text that shares no character with the replacement |
| `Substitution.NoNewOccurrence` | 111.js:97-100 | for a non-empty, `$`-free replacement, every occurrence in the replaced text of a text disjoint from the replacement was already in the input, and is not the token |
| `Workflow.SeedFromRandom` | 111.js:93 | the seed is a natural number below 10000000000 |
| `Workflow.CollapseBreaks` | 111.js:94 | collapsing line breaks leaves no carriage return or line feed |
| `Workflow.CollapsePlainPrefix` | 111.js:94 | text without line breaks passes through the collapse unchanged |
| `Workflow.CollapseRun` | 111.js:94 | a whole run of carriage returns and line feeds, of any length, becomes a single `\n` escape |
| `Workflow.EscapeQuotes` | 111.js:94 | quote escaping adds and removes no character other than backslash and quote |
| `Workflow.EscapeQuotesQuote` | 111.js:94 | every double quote becomes a backslash followed by the quote, whatever precedes it, and the text before it is copied |
| `Workflow.UnescapeEscapeQuotes` | 111.js:94 | removing the inserted backslashes gives back the original text, even when it holds backslashes of its own |
| `Workflow.EscapeContext` | 111.js:94 | the escaped context has no line break |
| `Workflow.EscapeContextQuotes` | 111.js:94 | un-escaping the escaped context gives the context with its breaks collapsed |
| `Workflow.EscapedContextFitsJsonString` | 111.js:94-102 | a context without backslashes or control characters other than line breaks escapes into a valid JSON string body (section 7 of RFC 8259) |
| `Workflow.TabBreaksJsonString` | 111.js:94-102 | a tab passes through the escape unchanged and gives an invalid JSON string body |
| `Workflow.BackslashBreaksJsonString` | 111.js:94-102 | a backslash passes through the escape unchanged and gives an invalid JSON string body |
| `Workflow.ResolveResolved` | 111.js:97-100 | a template holding none of the four placeholders comes back unchanged, so substitution is idempotent on its output when the output holds no placeholder |
| `Workflow.NumericTokensGone` | 111.js:97-99 | after the seed, width and height passes none of those three placeholders is left, whatever the template and the numbers |
| `Workflow.ResolveBareContextToken` | 111.js:97-100 | a context without `$` patterns replaces the bare context placeholder verbatim; the numeric passes leave that placeholder alone |
| `Workflow.ContextCanCarryToken` | 111.js:94-100 | a context reading `$Seed$` leaves `$Seed$` in the resolved text, because the context pass runs last |
| `Workflow.DollarPatternInContext` | 111.js:100 | a context of `$&` puts the matched placeholder back |
| `Workflow.NoSeedTokenInSplice` | 111.js:97 | the template `$Se$LLMCONTEXT$ed$` holds no seed placeholder, so the seed pass leaves it alone |
| `Workflow.EmptyContextSplicesToken` | 111.js:97-100 | with an empty context, the template `$Se$LLMCONTEXT$ed$` resolves to `$Seed$`, an unreplaced placeholder |
| `Workflow.HasMarkerImage` | 111.js:110 | a node that passes the field test is an object with an `inputs` object holding `image` set to the marker |
| `Workflow.SetImage` | 111.js:110-111 | setting the image input changes only `inputs.image`; member names and order stay |
| `Workflow.MarkerImageIsSerialised` | 111.js:109-110 | a node whose image input is the marker always contains the marker in its serialised form |
| `Workflow.RewriteNode` | 111.js:107-113 | a node's image input is set to the name exactly when it is the marker, and nothing else in the node changes; the `includes` pre-test never rejects such a node |
| `Workflow.RewriteImages` | 111.js:105-115 | every top-level entry of an object or array keeps its key and position and is rewritten by itself; other values are unchanged |
| `Workflow.RewriteImagesIdempotent` | 111.js:105-115 | rewriting twice with a name other than the marker is the same as rewriting once |
| `Workflow.ImageGate` | 111.js:105 | the image rewrite runs exactly when uploads are on and the uploaded name is truthy (present and not empty) |
| `Workflow.ProcessWorkflow` | 111.js:91-117 | it fails exactly when the resolved text does not parse; on success the node ids and order are kept and only marked image inputs change; with the gate open every marked image input is set to the uploaded name; with the gate closed the parsed value is returned as is |
| `Upload.Selected` | 111.js:67 | character index 0 counts as selected although it is falsy; an unset id or an empty string does not |
| `Upload.AvatarUrl` | 111.js:69 | an avatar path starting with `http` is kept; any other gets exactly one `/` in front; the avatar text always ends the URL |
| `Upload.UploadFilenameInjective` | 111.js:75 | two different character indices never share an upload file name |
| `Upload.UploadCharacterImage` | 111.js:66-88 | with no character selected it sends nothing and returns null; a missing entry rejects; a network failure, an error status, a non-JSON body or a missing `name` returns null; otherwise it fetches the avatar, posts it to `/upload/image` with the fixed file name, and returns the server's name |
| `Poll.SelectArtifact` | 111.js:165-174 | no image is chosen exactly when every node's list is empty; otherwise the first image of the first node with a non-empty list is chosen |
| `Poll.SelectIgnoresLaterNodes` | 111.js:167-173 | nodes after the first one with an image do not change the choice |
| `Poll.ArtifactOf` | 111.js:162-177 | a check shows an image only when the history has a record with outputs, and then it shows the one chosen from those outputs |
| `Poll.PacedLowerBound` | 111.js:176-177 | the k-th check runs at least k retry delays after the start |
| `Poll.PollLoop` | 111.js:157-180 | every query is made within 120000 ms of the start, so there are at most 121 queries; the loop shows the first image any reply yields and no earlier reply had one; at the timeout it stops without showing anything |
| `Display.ViewUrl` | 111.js:186 | the view URL is the server URL, then `/view?` and the query, then `&t=` and the timestamp's digits |
| `Display.ViewUrlCacheBusting` | 111.js:184-186 | view URLs built at different times differ |
| `Display.Present` | 111.js:189-212 | the new URL is always shown last; in replace mode with an earlier result only the last slot changes; otherwise a slot is appended and the earlier ones stay |
| `Display.ReplaceModeKeepsOneSlot` | 111.js:191-195 | in replace mode successive images reuse one slot, which ends up showing the latest image |
| `Display.AppendModeKeepsAll` | 111.js:196-209 | in append mode every image gets its own slot, in display order |
| `Generation.Prepare` | 111.js:131-136 | a run fails with a missing character exactly when uploads are on and the upload call rejected; with uploads on and a settled upload, the uploaded name is what `processWorkflow` receives; with uploads off it is `processWorkflow` on the stored workflow and the context, with no image |
| `Generation.HasWorkflow` | 111.js:122 | no stored workflow fails the check; any stored object or array passes it, even an empty one |
| `Generation.OnCall` | 111.js:121-128 | a call while busy changes nothing; otherwise it takes the guard exactly when a workflow is stored, and only warns when none is; it never submits, polls or reports an error |
| `Generation.Step` | 111.js:120-154 | a call while busy is ignored; with no workflow it only warns; otherwise it takes the guard; a failed step reports its error and releases the guard; a queued job releases the guard and leaves a poll loop running; with automatic generation on, the completion event acts as a call; the invariant is kept |
| `Generation.AutoGenActsAsCall` | 111.js:45-49 | with automatic generation on, the completion event goes through the same guard as a button call |
| `Generation.RunKeepsInv` | 111.js:120-154 | in any interleaving of calls and settlements the flag is set exactly while a call is pending, and no accepted call submits more than one job |
| `Generation.OneSuccessfulRun` | 111.js:128-153 | a complete call submits one job, starts one poll loop and ends with the guard released |
| `Generation.GuardReleasedBeforePolling` | 111.js:146-153 | two jobs can be queued one after the other while the first poll loop is still running |
| `Generation.CallWhileBusyIsIgnored` | 111.js:121 | a second call during a pending one changes nothing and adds no submission |
| `Generation.DefaultSettingsOnlyWarn` | 111.js:14-23 | with the default settings no workflow is stored, so a call only warns and the completion event does nothing |

## Left out

- HTTP requests, the DOM, `toastr`, the settings popup and form parsing, `localStorage`, the button state and registering event listeners are I/O. They are not modelled. Network answers enter as parameters.
- The `URLSearchParams` query string is taken as given text.
- `JSON.parse` is a parameter of the model, not modelled itself. JSON numbers are integers. The exponent notation `String` uses for very large numbers is not modelled.
- `Json.Put`: a new key is appended at the end. JavaScript places a new integer-like key among the other integer keys in ascending order instead. The script only assigns keys that already exist (`inputs.image` at 111.js:111), so this case never arises in the model.
- Duplicate keys in a parsed object are not modelled: `Json.Get` reads the first member with the key, while `JSON.parse` keeps the last.
- A chat message whose `mes` is not a string makes `getContext` throw. Messages are modelled with string text only, so this case is not modelled.
- Node outputs are modelled as image lists. A `null` output node, on which the loop would throw and reschedule, is not modelled.
- A `displayImage` that throws inside a check, which would reschedule the check, is not modelled.
- `Math.random()` and `Date.now()` readings are parameters.
- Interleaving of several asynchronous calls is modelled only through the event sequence of `Generation.Run`. The poll loops it starts are not linked to the display slots.
- `Workflow.SeedFromRandom`: the product is computed on reals, so the rounding of the 64-bit floating-point product is not modelled.
- `Poll.PollLoop`: the model assumes each check reads the clock at least one retry delay after the previous one (`Poll.Paced`). It bounds the number of queries but not how late the last check runs.
- `ContextExtractor.ContextLines`: requires character names without line feeds. A name with a line feed would split its line in two.
- `ContextExtractor.GetContext`: the split-back clause holds only when no character name contains a line feed, for the same reason.
- `Substitution.ReplaceAllRemovesToken`: stated only for non-empty replacement text without `$` that shares no character with the token. This covers the numeric passes, which always insert at least one character, but not an arbitrary context: an empty context can splice a placeholder together (`Workflow.EmptyContextSplicesToken`).
- `Substitution.ReplaceAllKeepsAbsent`: stated under the same restriction. The replacement text must be non-empty and free of `$`.
- `Substitution.NoNewOccurrence`: stated under the same restriction. With an empty replacement, the text on either side of a removed token can join into a new occurrence.
- `Text.SplitJoin`: needs one or more parts. Splitting the join of no parts, the empty text, gives one empty part rather than none.
- `Workflow.ResolveResolved`: needs a template with no placeholder. It says nothing about a context that reintroduces one; `Workflow.ContextCanCarryToken` shows that this can happen.
- The settings form's defaults for an unparsable number (`parseInt` yielding NaN) enter only as `Decimal.JsInt` values. The form itself is left out.

=== FILE: context.dfy ===
/** `ComfyManager.getContext`: the last messages of the chat rendered as
    `Speaker: text` lines. */
module ContextExtractor {
  import opened Decimal
  import opened Text

  /** One chat message as the host stores it. A missing `name` is the empty string. */
  datatype Message = Message(isUser: bool, name: string, mes: string)

  /** `-x` on a number that came from `parseInt`. */
  function Negate(x: JsInt): JsInt {
    match x
    case NaN => NaN
    case Int(i) => Int(-i)
  }

  /** The index at which `array.slice(start)` begins on an array of length
      `len` (section 23.1.3.28 of ECMA-262): NaN counts as 0, a negative
      start counts from the end, and both are clamped to the array. */
  function SliceStart(len: nat, start: JsInt): (k: nat)
    ensures k <= len
  {
    match start
    case NaN => 0
    case Int(s) =>
      if s < 0 then (if len + s < 0 then 0 else len + s)
      else if s > len then len
      else s
  }

  /** `chat.slice(-depth)`. */
  function Window(chat: seq<Message>, depth: JsInt): (w: seq<Message>)
    ensures |w| <= |chat| && w == chat[|chat| - |w|..]
  {
    chat[SliceStart(|chat|, Negate(depth))..]
  }

  /** How many messages the window keeps, for each kind of depth. A depth of
      0 or NaN keeps the whole history; a negative depth drops messages from
      the front. */
  lemma WindowSize(chat: seq<Message>, depth: JsInt)
    ensures depth.NaN? ==> Window(chat, depth) == chat
    ensures depth == Int(0) ==> Window(chat, depth) == chat
    ensures depth.Int? && depth.i > 0 ==>
      |Window(chat, depth)| == (if depth.i < |chat| then depth.i else |chat|)
    ensures depth.Int? && depth.i < 0 ==>
      Window(chat, depth) == (if -depth.i < |chat| then chat[-depth.i..] else [])
  {
  }

  /** No `<` is followed, anywhere later, by a `>`: the tag pattern `<[^>]*>`
      has no match left. */
  predicate TagFree(s: string) {
    forall i, j :: 0 <= i < j < |s| && s[i] == '<' ==> s[j] != '>'
  }

  /** Position of the first `c` in `s`. */
  function IndexOf(s: string, c: char): (k: nat)
    requires c in s
    ensures k < |s| && s[k] == c
    ensures forall j :: 0 <= j < k ==> s[j] != c
  {
    if s[0] == c then 0 else 1 + IndexOf(s[1..], c)
  }

  /** `s.replace(/<[^>]*>/g, '')`: from left to right, each `<` that has a `>`
      somewhere after it is removed together with everything up to the first
      such `>`; a `<` without a later `>` stays. */
  function StripTags(s: string): (r: string)
    ensures TagFree(r)
    ensures forall i :: 0 <= i < |r| ==> r[i] in s
    decreases |s|
  {
    if |s| == 0 then ""
    else if s[0] == '<' && '>' in s[1..] then StripTags(s[IndexOf(s[1..], '>') + 2..])
    else
      var rest := StripTags(s[1..]);
      assert forall i :: 0 <= i < |rest| ==> rest[i] in s[1..];
      [s[0]] + rest
  }

  /** Text with no tag left is not changed by stripping, so stripping twice
      is the same as stripping once. */
  lemma {:induction false} StripTagsKeepsTagFree(s: string)
    requires TagFree(s)
    ensures StripTags(s) == s
  {
    if |s| > 0 {
      if s[0] == '<' {
        assert forall j :: 0 <= j < |s[1..]| ==> s[1..][j] == s[j + 1] != '>';
      }
      StripTagsKeepsTagFree(s[1..]);
      assert [s[0]] + s[1..] == s;
    }
  }

  /** Text before the first `<` is copied unchanged. */
  lemma {:induction false} StripTagsPlainPrefix(p: string, q: string)
    requires '<' !in p
    ensures StripTags(p + q) == p + StripTags(q)
  {
    if |p| > 0 {
      assert (p + q)[1..] == p[1..] + q;
      StripTagsPlainPrefix(p[1..], q);
      assert [p[0]] + (p[1..] + StripTags(q)) == p + StripTags(q);
    } else {
      assert p + q == q;
    }
  }

  /** A whole tag, from `<` to the first `>`, is removed. */
  lemma StripTagsWholeTag(t: string, q: string)
    requires '>' !in t
    ensures StripTags("<" + t + ">" + q) == StripTags(q)
  {
    var s := "<" + t + ">" + q;
    assert s[1..][|t|] == '>';
    forall j | 0 <= j < |t|
      ensures s[1..][j] != '>'
    {
      assert s[1..][j] == t[j];
    }
    assert IndexOf(s[1..], '>') == |t|;
    assert s[|t| + 2..] == q;
  }

  lemma StripTagsIdempotent(s: string)
    ensures StripTags(StripTags(s)) == StripTags(s)
  {
    StripTagsKeepsTagFree(StripTags(s));
  }

  /** `s.replace(/\n/g, ' ')`. A carriage return is left as it is. */
  function FlattenNewlines(s: string): (r: string)
    ensures |r| == |s|
    ensures '\n' !in r
    ensures forall i :: 0 <= i < |s| && s[i] != '\n' ==> r[i] == s[i]
    ensures forall i :: 0 <= i < |s| && s[i] == '\n' ==> r[i] == ' '
  {
    seq(|s|, i requires 0 <= i < |s| => if s[i] == '\n' then ' ' else s[i])
  }

  /** The message text of one line: tags stripped, then line feeds flattened. */
  function CleanText(mes: string): (r: string)
    ensures TagFree(r)
    ensures '\n' !in r
    ensures |r| == |StripTags(mes)|
    ensures forall i :: 0 <= i < |r| ==> r[i] == (if StripTags(mes)[i] == '\n' then ' ' else StripTags(mes)[i])
  {
    var stripped := StripTags(mes);
    var r := FlattenNewlines(stripped);
    assert forall i :: 0 <= i < |r| ==> r[i] == stripped[i] || r[i] == ' ';
    r
  }

  /** Text without tags keeps every character except line feeds, so a carriage
      return survives into the context. */
  lemma CleanTextPlain(mes: string)
    requires '<' !in mes
    ensures |CleanText(mes)| == |mes|
    ensures forall i :: 0 <= i < |mes| && mes[i] != '\n' ==> CleanText(mes)[i] == mes[i]
  {
    StripTagsKeepsTagFree(mes);
  }

  /** The speaker label: `User` for the user, else the name, else `Char`. */
  function Label(m: Message): (r: string)
    ensures |r| > 0
    ensures m.isUser ==> r == "User"
    ensures !m.isUser && m.name != "" ==> r == m.name
    ensures !m.isUser && m.name == "" ==> r == "Char"
  {
    if m.isUser then "User" else if m.name != "" then m.name else "Char"
  }

  function RenderLine(m: Message): string {
    Label(m) + ": " + CleanText(m.mes)
  }

  function Lines(w: seq<Message>): (ls: seq<string>)
    ensures |ls| == |w|
  {
    seq(|w|, i requires 0 <= i < |w| => RenderLine(w[i]))
  }

  /** `getContext()` with the chat history and the configured depth: every
      rendered line of the window occurs in the result, and when no name
      holds a line feed, reading the result back line by line gives exactly
      the window's lines. */
  function GetContext(chat: seq<Message>, depth: JsInt): (r: string)
    ensures |Window(chat, depth)| == 0 ==> r == ""
    ensures forall i :: 0 <= i < |Window(chat, depth)| ==> Contains(r, RenderLine(Window(chat, depth)[i]))
    ensures NamesOnOneLine(chat) && |Window(chat, depth)| > 0 ==>
      Split(r, '\n') == Lines(Window(chat, depth))
  {
    if |chat| == 0 then ""
    else
      JoinedLinesFacts(chat, depth);
      Join(Lines(Window(chat, depth)), "\n")
  }

  predicate NamesOnOneLine(chat: seq<Message>) {
    forall i :: 0 <= i < |chat| ==> '\n' !in chat[i].name
  }

  lemma RenderLineOnOneLine(m: Message)
    requires '\n' !in m.name
    ensures '\n' !in RenderLine(m)
  {
  }

  /** What the joined lines of a window promise: each line occurs in the
      text, and the text splits back into the lines when no name holds a
      line feed. */
  lemma JoinedLinesFacts(chat: seq<Message>, depth: JsInt)
    ensures var w := Window(chat, depth);
      && (forall i :: 0 <= i < |w| ==> Contains(Join(Lines(w), "\n"), RenderLine(w[i])))
      && (NamesOnOneLine(chat) && |w| > 0 ==> Split(Join(Lines(w), "\n"), '\n') == Lines(w))
  {
    var w := Window(chat, depth);
    var ls := Lines(w);
    forall i | 0 <= i < |w|
      ensures Contains(Join(ls, "\n"), RenderLine(w[i]))
    {
      JoinContainsPart(ls, "\n", i);
    }
    if NamesOnOneLine(chat) && |w| > 0 {
      forall i | 0 <= i < |ls|
        ensures '\n' !in ls[i]
      {
        assert w[i] == chat[|chat| - |w| + i];
        RenderLineOnOneLine(w[i]);
      }
      SplitJoin(ls, '\n');
    }
  }

  /** The context read back line by line: one `Label: text` line per message
      of the window, in chat order, its text free of tags and line feeds; a
      positive depth N yields at most N lines. */
  lemma ContextLines(chat: seq<Message>, depth: JsInt)
    requires NamesOnOneLine(chat)
    requires |Window(chat, depth)| > 0
    ensures var w := Window(chat, depth);
      var ls := Split(GetContext(chat, depth), '\n');
      && |ls| == |w|
      && (forall i :: 0 <= i < |w| ==> ls[i] == Label(w[i]) + ": " + CleanText(w[i].mes))
    ensures depth.Int? && depth.i > 0 ==> |Split(GetContext(chat, depth), '\n')| <= depth.i
  {
    var w := Window(chat, depth);
    var ls := Split(GetContext(chat, depth), '\n');
    assert ls == Lines(w);
    forall i | 0 <= i < |w|
      ensures ls[i] == Label(w[i]) + ": " + CleanText(w[i].mes)
    {
      assert Lines(w)[i] == RenderLine(w[i]);
    }
    WindowSize(chat, depth);
  }
}

=== FILE: decimal.dfy ===
/** Decimal rendering of integers, as `String(n)` and template literals render
    a JavaScript number that holds an integer of moderate size. */
module Decimal {

  /** A number produced by `parseInt`: an integer, or NaN on unparsable input. */
  datatype JsInt = Int(i: int) | NaN

  predicate IsDigit(c: char) {
    '0' <= c <= '9'
  }

  function DigitChar(d: nat): (c: char)
    requires d < 10
    ensures IsDigit(c)
    ensures c as int - '0' as int == d
  {
    ['0', '1', '2', '3', '4', '5', '6', '7', '8', '9'][d]
  }

  lemma DigitCharInjective(a: nat, b: nat)
    requires a < 10 && b < 10
    requires DigitChar(a) == DigitChar(b)
    ensures a == b
  {
  }

  /** The shortest decimal numeral of `n`, most significant digit first. */
  function NatText(n: nat): (s: string)
    ensures 1 <= |s|
    ensures forall i :: 0 <= i < |s| ==> IsDigit(s[i])
    ensures s[0] == '0' ==> n == 0
  {
    if n < 10 then [DigitChar(n)] else NatText(n / 10) + [DigitChar(n % 10)]
  }

  /** The number a string of decimal digits denotes, most significant first. */
  function DigitsValue(s: string): int
    requires forall i :: 0 <= i < |s| ==> IsDigit(s[i])
  {
    if |s| == 0 then 0
    else DigitsValue(s[..|s| - 1]) * 10 + (s[|s| - 1] as int - '0' as int)
  }

  /** The numeral of `n` denotes `n`. */
  lemma {:induction false} NatTextValue(n: nat)
    ensures DigitsValue(NatText(n)) == n
  {
    var s := NatText(n);
    if n < 10 {
      assert s[..0] == "";
    } else {
      assert s[..|s| - 1] == NatText(n / 10);
      NatTextValue(n / 10);
    }
  }

  /** Two different naturals never render to the same numeral. */
  lemma {:induction false} NatTextInjective(a: nat, b: nat)
    requires NatText(a) == NatText(b)
    ensures a == b
  {
    var sa, sb := NatText(a), NatText(b);
    if a < 10 && b < 10 {
      DigitCharInjective(a, b);
    } else if 10 <= a && 10 <= b {
      assert sa[..|sa| - 1] == NatText(a / 10);
      assert sb[..|sb| - 1] == NatText(b / 10);
      NatTextInjective(a / 10, b / 10);
      DigitCharInjective(a % 10, b % 10);
    } else {
      assert false;
    }
  }

  /** `String(x)` for an integer-valued number or NaN. */
  function JsIntText(x: JsInt): (s: string)
    ensures x.NaN? ==> s == "NaN"
    ensures x.Int? && x.i >= 0 ==> s == NatText(x.i)
    ensures x.Int? && x.i < 0 ==> s == "-" + NatText(-x.i)
    ensures forall k :: 0 <= k < |s| ==> IsDigit(s[k]) || s[k] in "-Na"
  {
    match x
    case NaN => "NaN"
    case Int(i) => if i < 0 then "-" + NatText(-i) else NatText(i)
  }
}

=== FILE: display.dfy ===
/** `ComfyManager.displayImage`: the image URL and the replace-or-append
    decision over the result slots shown in the chat. */
module Display {
  import opened Decimal

  /** `${comfyUrl}/view?${query}&t=${Date.now()}`. The encoded query string
      is taken as given. */
  function ViewUrl(comfyUrl: string, query: string, now: nat): (url: string)
    ensures |url| > |comfyUrl| && url[..|comfyUrl|] == comfyUrl
    ensures |url| >= |comfyUrl| + 6 + |query| + 3 + |NatText(now)|
    ensures url[|comfyUrl|..|comfyUrl| + 6 + |query|] == "/view?" + query
    ensures url[|url| - |NatText(now)| - 3..] == "&t=" + NatText(now)
  {
    var p := comfyUrl + "/view?" + query;
    assert (p + "&t=" + NatText(now))[|p|..] == "&t=" + NatText(now);
    assert (p + "&t=" + NatText(now))[|comfyUrl|..|p|] == "/view?" + query;
    p + "&t=" + NatText(now)
  }

  /** Two displays at different times use different URLs, so a cached copy
      of the earlier image is never reused. */
  lemma ViewUrlCacheBusting(comfyUrl: string, query: string, t1: nat, t2: nat)
    requires ViewUrl(comfyUrl, query, t1) == ViewUrl(comfyUrl, query, t2)
    ensures t1 == t2
  {
    var p := comfyUrl + "/view?" + query + "&t=";
    assert ViewUrl(comfyUrl, query, t1)[|p|..] == NatText(t1);
    assert ViewUrl(comfyUrl, query, t2)[|p|..] == NatText(t2);
    NatTextInjective(t1, t2);
  }

  /** The `src` of each element carrying the result marker, in page order.
      In replace mode the last one is overwritten; otherwise one is appended. */
  function Present(slots: seq<string>, url: string, replaceMode: bool): (r: seq<string>)
    ensures |r| > 0 && r[|r| - 1] == url
    ensures replaceMode && |slots| > 0 ==> |r| == |slots| && r[..|r| - 1] == slots[..|slots| - 1]
    ensures !(replaceMode && |slots| > 0) ==> |r| == |slots| + 1 && r[..|slots|] == slots
  {
    if replaceMode && |slots| > 0 then slots[..|slots| - 1] + [url] else slots + [url]
  }

  /** Successive displays in one mode. */
  function PresentAll(slots: seq<string>, urls: seq<string>, replaceMode: bool): seq<string>
    decreases |urls|
  {
    if |urls| == 0 then slots else PresentAll(Present(slots, urls[0], replaceMode), urls[1..], replaceMode)
  }

  /** In replace mode a page without results gets one slot, which always
      shows the latest image; other slots, if any, are never retargeted. */
  lemma {:induction false} ReplaceModeKeepsOneSlot(slots: seq<string>, urls: seq<string>)
    requires |urls| > 0
    ensures var r := PresentAll(slots, urls, true);
      && |r| == (if |slots| == 0 then 1 else |slots|)
      && r[|r| - 1] == urls[|urls| - 1]
      && r[..|r| - 1] == (if |slots| == 0 then [] else slots[..|slots| - 1])
    decreases |urls|
  {
    var once := Present(slots, urls[0], true);
    if |urls| > 1 {
      ReplaceModeKeepsOneSlot(once, urls[1..]);
      if |slots| > 0 {
        assert once[..|once| - 1] == slots[..|slots| - 1];
      }
    }
  }

  /** In append mode every image gets its own slot, in display order. */
  lemma {:induction false} AppendModeKeepsAll(slots: seq<string>, urls: seq<string>)
    ensures PresentAll(slots, urls, false) == slots + urls
    decreases |urls|
  {
    if |urls| > 0 {
      AppendModeKeepsAll(slots + [urls[0]], urls[1..]);
      assert slots + [urls[0]] + urls[1..] == slots + urls;
    } else {
      assert slots + urls == slots;
    }
  }
}

=== FILE: generate.dfy ===
/** `ComfyManager.generate`: the `isGenerating` guard around preparing and
    queueing a job. `pollResult` starts its first check without awaiting the
    loop, so the `finally` block clears the guard as soon as the job is
    queued: the guard covers preparing and submitting, not polling. */
module Generation {
  import opened Wrappers
  import opened Decimal
  import opened Json
  import opened ContextExtractor
  import opened Workflow
  import opened Upload

  /** The settings object the script reads on every call. */
  datatype Settings = Settings(
    comfyUrl: string,
    contextDepth: JsInt,
    uploadCharImg: bool,
    width: JsInt,
    height: JsInt,
    autoGen: bool,
    replaceMode: bool,
    workflow: Option<Json>)

  const DefaultSettings := Settings("http://127.0.0.1:8188", Int(5), true, Int(1024), Int(1024), false, true, None)

  /** `settings.workflow` is truthy. */
  predicate HasWorkflow(s: Settings)
    ensures s.workflow.None? ==> !HasWorkflow(s)
    ensures s.workflow.Some? && (s.workflow.value.JObj? || s.workflow.value.JArr?) ==> HasWorkflow(s)
  {
    s.workflow.Some? && Truthy(s.workflow.value)
  }

  /** The error a failed run reports through `toastr.error`. */
  datatype RunError = TemplateFailed | CharacterMissing | QueueFailed

  /** The first part of the `try` block: the context, the optional upload
      and the templated workflow. `upload` is the settled upload call, used
      only when uploading is switched on; `u` is the `Math.random()` draw. */
  function Prepare(s: Settings, chat: seq<Message>, upload: UploadOutcome, u: real,
                   parse: string -> Option<Json>): (r: Result<Json, RunError>)
    requires s.workflow.Some? && 0.0 <= u < 1.0
    ensures r.Failure? && r.error == CharacterMissing <==> s.uploadCharImg && upload.Rejected?
    ensures r.Failure? ==> r.error != QueueFailed
    ensures !s.uploadCharImg ==>
      r == MapError(ProcessWorkflow(Stringify(s.workflow.value), GetContext(chat, s.contextDepth), None,
                                    u, s.width, s.height, false, parse))
    ensures s.uploadCharImg && upload.Returned? ==>
      r == MapError(ProcessWorkflow(Stringify(s.workflow.value), GetContext(chat, s.contextDepth), upload.name,
                                    u, s.width, s.height, true, parse))
  {
    var context := GetContext(chat, s.contextDepth);
    var image := if s.uploadCharImg then upload else Returned(None);
    match image
    case Rejected => Failure(CharacterMissing)
    case Returned(name) =>
      MapError(ProcessWorkflow(Stringify(s.workflow.value), context, name, u, s.width, s.height, s.uploadCharImg, parse))
  }

  function MapError(r: Result<Json, TemplateError>): Result<Json, RunError> {
    match r
    case Success(wf) => Success(wf)
    case Failure(_) => Failure(TemplateFailed)
  }

  /** Where the pending call of `generate` is suspended. */
  datatype Stage = Idle | Preparing | Submitting

  /** The manager's flag together with what has been observed so far: the
      jobs sent to `/prompt`, the poll loops started, the errors reported and
      the "import a workflow first" warnings. `accepted` counts the calls that
      set the flag. */
  datatype Guard = Guard(
    isGenerating: bool,
    stage: Stage,
    accepted: nat,
    submitted: seq<Json>,
    polls: seq<string>,
    errors: seq<RunError>,
    warnings: nat)

  const Initial := Guard(false, Idle, 0, [], [], [], 0)

  datatype Event =
    | Call                                           // generate() from the button
    | ChatCompletionFinished                         // the host's completion event
    | Prepared(job: Result<Json, RunError>)          // Prepare settled
    | QueueAnswered(promptId: Result<string, RunError>)  // the /prompt request settled

  /** The flag is set exactly while a call is suspended, and every accepted
      call submits at most one job. */
  predicate Inv(g: Guard) {
    && (g.isGenerating <==> g.stage != Idle)
    && |g.submitted| + (if g.stage == Preparing then 1 else 0) <= g.accepted
  }

  /** The checks at the top of `generate`. */
  function OnCall(g: Guard, s: Settings): (r: Guard)
    ensures r.submitted == g.submitted && r.polls == g.polls && r.errors == g.errors
    ensures r.isGenerating <==> g.isGenerating || HasWorkflow(s)
    ensures r.accepted == g.accepted + (if !g.isGenerating && HasWorkflow(s) then 1 else 0)
    ensures r.warnings == g.warnings + (if !g.isGenerating && !HasWorkflow(s) then 1 else 0)
    ensures g.isGenerating ==> r == g
  {
    if g.isGenerating then g
    else if !HasWorkflow(s) then g.(warnings := g.warnings + 1)
    else g.(isGenerating := true, stage := Preparing, accepted := g.accepted + 1)
  }

  function Step(g: Guard, s: Settings, e: Event): (r: Guard)
    ensures Inv(g) ==> Inv(r)
    ensures e.Call? && g.isGenerating ==> r == g
    ensures e.Call? && !g.isGenerating && !HasWorkflow(s) ==>
      r == g.(warnings := g.warnings + 1)
    ensures e.Call? && !g.isGenerating && HasWorkflow(s) ==>
      r.isGenerating && r.stage == Preparing && r.submitted == g.submitted && r.polls == g.polls
    ensures e.ChatCompletionFinished? && !s.autoGen ==> r == g
    ensures e.ChatCompletionFinished? && s.autoGen ==> r == OnCall(g, s)
    ensures e.Prepared? && g.stage == Preparing && e.job.Failure? ==>
      !r.isGenerating && r.submitted == g.submitted && r.errors == g.errors + [e.job.error]
    ensures e.Prepared? && g.stage == Preparing && e.job.Success? ==>
      r.isGenerating == g.isGenerating && r.submitted == g.submitted + [e.job.value]
    ensures e.QueueAnswered? && g.stage == Submitting && e.promptId.Failure? ==>
      !r.isGenerating && r.polls == g.polls && r.errors == g.errors + [e.promptId.error]
    ensures e.QueueAnswered? && g.stage == Submitting && e.promptId.Success? ==>
      !r.isGenerating && r.polls == g.polls + [e.promptId.value]
    ensures !e.Prepared? ==> r.submitted == g.submitted
    ensures (e.Prepared? || e.QueueAnswered?) ==> r.accepted == g.accepted
  {
    match e
    case Call => OnCall(g, s)
    case ChatCompletionFinished => if s.autoGen then OnCall(g, s) else g
    case Prepared(job) =>
      if g.stage != Preparing then g
      else
        (match job
         case Failure(err) => g.(isGenerating := false, stage := Idle, errors := g.errors + [err])
         case Success(wf) => g.(stage := Submitting, submitted := g.submitted + [wf]))
    case QueueAnswered(promptId) =>
      if g.stage != Submitting then g
      else
        match promptId
        case Failure(err) => g.(isGenerating := false, stage := Idle, errors := g.errors + [err])
        case Success(id) => g.(isGenerating := false, stage := Idle, polls := g.polls + [id])
  }

  function Run(g: Guard, s: Settings, events: seq<Event>): Guard
    decreases |events|
  {
    if |events| == 0 then g else Run(Step(g, s, events[0]), s, events[1..])
  }

  /** However events interleave, the flag tracks the pending call and no
      accepted call submits twice. */
  lemma {:induction false} RunKeepsInv(g: Guard, s: Settings, events: seq<Event>)
    requires Inv(g)
    ensures Inv(Run(g, s, events))
    ensures |Run(g, s, events).submitted| <= Run(g, s, events).accepted
    decreases |events|
  {
    if |events| > 0 {
      RunKeepsInv(Step(g, s, events[0]), s, events[1..]);
    }
  }

  /** One complete call that prepares and queues a job: the flag is clear
      again at the end, one job was sent, and its poll loop is left running. */
  lemma OneSuccessfulRun(g: Guard, s: Settings, job: Json, promptId: string)
    requires Inv(g) && !g.isGenerating && HasWorkflow(s)
    ensures var r := Run(g, s, [Call, Prepared(Success(job)), QueueAnswered(Success(promptId))]);
      && Inv(r)
      && !r.isGenerating
      && r.submitted == g.submitted + [job]
      && r.polls == g.polls + [promptId]
  {
    var g1 := Step(g, s, Call);
    var g2 := Step(g1, s, Prepared(Success(job)));
    var g3 := Step(g2, s, QueueAnswered(Success(promptId)));
    assert Run(g, s, [Call, Prepared(Success(job)), QueueAnswered(Success(promptId))])
        == Run(g1, s, [Prepared(Success(job)), QueueAnswered(Success(promptId))]);
    assert Run(g1, s, [Prepared(Success(job)), QueueAnswered(Success(promptId))])
        == Run(g2, s, [QueueAnswered(Success(promptId))]);
    assert Run(g2, s, [QueueAnswered(Success(promptId))]) == Run(g3, s, []);
    RunKeepsInv(g, s, [Call, Prepared(Success(job)), QueueAnswered(Success(promptId))]);
  }

  /** The guard does not cover polling: a second job can be prepared and
      queued while the first job's poll loop is still running, so two loops
      are live at once and either may display its image later. */
  lemma GuardReleasedBeforePolling(s: Settings, job1: Json, job2: Json, id1: string, id2: string)
    requires HasWorkflow(s)
    ensures Run(Initial, s, [Call, Prepared(Success(job1)), QueueAnswered(Success(id1)),
                             Call, Prepared(Success(job2)), QueueAnswered(Success(id2))]).polls == [id1, id2]
  {
    OneSuccessfulRun(Initial, s, job1, id1);
    var g := Run(Initial, s, [Call, Prepared(Success(job1)), QueueAnswered(Success(id1))]);
    OneSuccessfulRun(g, s, job2, id2);
    RunAppend(Initial, s, [Call, Prepared(Success(job1)), QueueAnswered(Success(id1))],
              [Call, Prepared(Success(job2)), QueueAnswered(Success(id2))]);
    assert [Call, Prepared(Success(job1)), QueueAnswered(Success(id1))]
         + [Call, Prepared(Success(job2)), QueueAnswered(Success(id2))]
        == [Call, Prepared(Success(job1)), QueueAnswered(Success(id1)),
            Call, Prepared(Success(job2)), QueueAnswered(Success(id2))];
  }

  lemma {:induction false} RunAppend(g: Guard, s: Settings, a: seq<Event>, b: seq<Event>)
    ensures Run(g, s, a + b) == Run(Run(g, s, a), s, b)
    decreases |a|
  {
    if |a| > 0 {
      assert (a + b)[1..] == a[1..] + b;
      RunAppend(Step(g, s, a[0]), s, a[1..], b);
    } else {
      assert a + b == b;
    }
  }

  /** Out of the box no workflow is stored, so a call only warns. */
  lemma DefaultSettingsOnlyWarn()
    ensures !HasWorkflow(DefaultSettings)
    ensures Step(Initial, DefaultSettings, Call) == Initial.(warnings := 1)
    ensures Step(Initial, DefaultSettings, ChatCompletionFinished) == Initial
  {
  }

  /** With automatic generation on, the completion event behaves exactly like
      a button call, so the same guard covers it. */
  lemma AutoGenActsAsCall(g: Guard, s: Settings)
    requires s.autoGen
    ensures Step(g, s, ChatCompletionFinished) == Step(g, s, Call)
  {
  }

  /** A call that arrives while another is suspended changes nothing: no
      second submission. */
  lemma CallWhileBusyIsIgnored(g: Guard, s: Settings, job: Json)
    requires Inv(g) && !g.isGenerating && HasWorkflow(s)
    ensures var busy := Step(g, s, Call);
      && busy.isGenerating
      && Step(busy, s, Call) == busy
      && Step(Step(busy, s, Call), s, Prepared(Success(job))).submitted == g.submitted + [job]
  {
  }
}

=== FILE: json.dfy ===
/** JSON values as the script holds them after `JSON.parse`, and the text that
    `JSON.stringify` produces for them. Object members are listed in the order
    JavaScript enumerates an object's own properties (section 10.1.11.1 of
    ECMA-262): integer-like keys in ascending order, then the other keys in
    insertion order. `for…in` and `JSON.stringify` walk members in this order. */
module Json {
  import opened Wrappers
  import opened Decimal
  import opened Text

  /** Numbers are restricted to integers; JSON text with fractions or exponents
      is not modelled. */
  datatype Json =
    | JNull
    | JBool(b: bool)
    | JNum(n: int)
    | JStr(s: string)
    | JArr(items: seq<Json>)
    | JObj(members: seq<(string, Json)>)

  /** `o[key]` on a parsed object: the value of the first member named `key`. */
  function Get(members: seq<(string, Json)>, key: string): (r: Option<Json>)
    ensures r.None? <==> forall i :: 0 <= i < |members| ==> members[i].0 != key
    ensures r.Some? ==> exists i :: 0 <= i < |members| && members[i] == (key, r.value)
  {
    if |members| == 0 then None
    else if members[0].0 == key then Some(members[0].1)
    else Get(members[1..], key)
  }

  /** The position of the member that `Get` reads. */
  lemma {:induction false} GetWitness(members: seq<(string, Json)>, key: string) returns (i: nat)
    requires Get(members, key).Some?
    ensures i < |members| && members[i] == (key, Get(members, key).value)
  {
    if members[0].0 == key {
      i := 0;
    } else {
      var j := GetWitness(members[1..], key);
      i := j + 1;
    }
  }

  /** `o[key] = v`: overwrites the first member named `key` in place, or adds
      the member at the end when there is none. The end is where JavaScript
      puts a new key that is not integer-like. */
  function Put(members: seq<(string, Json)>, key: string, v: Json): (r: seq<(string, Json)>)
    ensures Get(r, key) == Some(v)
    ensures forall k :: k != key ==> Get(r, k) == Get(members, k)
    ensures Get(members, key).Some? ==> |r| == |members|
    ensures Get(members, key).Some? ==> forall i :: 0 <= i < |r| ==> r[i].0 == members[i].0
    ensures Get(members, key).None? ==> r == members + [(key, v)]
  {
    if |members| == 0 then [(key, v)]
    else if members[0].0 == key then [(key, v)] + members[1..]
    else [members[0]] + Put(members[1..], key, v)
  }

  /** JavaScript truthiness of a parsed value. */
  predicate Truthy(j: Json) {
    match j
    case JNull => false
    case JBool(b) => b
    case JNum(n) => n != 0
    case JStr(s) => s != ""
    case _ => true
  }

  function HexDigit(d: nat): char
    requires d < 16
  {
    "0123456789abcdef"[d]
  }

  /** True of the characters `JSON.stringify` writes with a backslash escape. */
  predicate NeedsEscape(c: char) {
    c == '"' || c == '\\' || c < ' '
  }

  /** How `JSON.stringify` writes one character of a string (QuoteJSONString). */
  function EscapeChar(c: char): (r: string)
    ensures NeedsEscape(c) ==> |r| >= 2 && r[0] == '\\'
    ensures !NeedsEscape(c) ==> r == [c]
  {
    if c == '"' then "\\\""
    else if c == '\\' then "\\\\"
    else if c == '\U{0008}' then "\\b"
    else if c == '\t' then "\\t"
    else if c == '\n' then "\\n"
    else if c == '\U{000C}' then "\\f"
    else if c == '\r' then "\\r"
    else if c < ' ' then "\\u00" + [HexDigit(c as int / 16), HexDigit(c as int % 16)]
    else [c]
  }

  function EscapeString(s: string): string {
    if |s| == 0 then "" else EscapeChar(s[0]) + EscapeString(s[1..])
  }

  /** A string with nothing to escape is written verbatim between the quotes. */
  lemma {:induction false} EscapeStringPlain(s: string)
    requires forall i :: 0 <= i < |s| ==> !NeedsEscape(s[i])
    ensures EscapeString(s) == s
  {
    if |s| > 0 {
      EscapeStringPlain(s[1..]);
      assert [s[0]] + s[1..] == s;
    }
  }

  function Quote(s: string): string {
    "\"" + EscapeString(s) + "\""
  }

  /** `JSON.stringify(j)` without indentation. */
  function Stringify(j: Json): (r: string)
    ensures |r| > 0
    ensures j.JStr? ==> |r| >= 2 && r[0] == '"' && r[|r| - 1] == '"'
    ensures j.JArr? ==> |r| >= 2 && r[0] == '[' && r[|r| - 1] == ']'
    ensures j.JObj? ==> |r| >= 2 && r[0] == '{' && r[|r| - 1] == '}'
    decreases j
  {
    match j
    case JNull => "null"
    case JBool(b) => if b then "true" else "false"
    case JNum(n) => JsIntText(Int(n))
    case JStr(s) => Quote(s)
    case JArr(items) =>
      "[" + Join(seq(|items|, i requires 0 <= i < |items| => Stringify(items[i])), ",") + "]"
    case JObj(ms) =>
      "{" + Join(seq(|ms|, i requires 0 <= i < |ms| => MemberText(ms[i].0, Stringify(ms[i].1))), ",") + "}"
  }

  function MemberText(key: string, valueText: string): string {
    Quote(key) + ":" + valueText
  }

  /** The serialised form of an object contains the serialised form of each
      of its member values. */
  lemma StringifyShowsMember(ms: seq<(string, Json)>, i: nat)
    requires i < |ms|
    ensures Contains(Stringify(JObj(ms)), Stringify(ms[i].1))
  {
    var parts := seq(|ms|, k requires 0 <= k < |ms| => MemberText(ms[k].0, Stringify(ms[k].1)));
    var joined := Join(parts, ",");
    assert Stringify(JObj(ms)) == "{" + joined + "}";
    ContainsMiddle("{", joined, "}");
    JoinContainsPart(parts, ",", i);
    ContainsMiddle(Quote(ms[i].0) + ":", Stringify(ms[i].1), "");
    assert Quote(ms[i].0) + ":" + Stringify(ms[i].1) + "" == parts[i];
    ContainsTransitive("{" + joined + "}", joined, parts[i]);
    ContainsTransitive("{" + joined + "}", parts[i], Stringify(ms[i].1));
  }
}

=== FILE: poll.dfy ===
/** `ComfyManager.pollResult`: choosing the artifact from a history record,
    and the self-rescheduling check loop driven by clock readings. */
module Poll {
  import opened Wrappers

  /** Milliseconds after the start beyond which no query is made. */
  const TimeoutMs := 120000

  /** The `setTimeout` delay before the next check. */
  const RetryDelayMs := 1000

  /** One entry of a node's `images` list. */
  datatype Image = Image(filename: string, subfolder: string, kind: string)

  /** One output node; a missing `images` field is the empty list. */
  datatype NodeOutput = NodeOutput(images: seq<Image>)

  /** `history[promptId]`; `outputs` lists the output nodes in iteration order. */
  datatype HistoryRecord = HistoryRecord(outputs: Option<seq<(string, NodeOutput)>>)

  /** What one check learns: the fetch or JSON decoding threw, or the history
      answered with or without a record for the prompt. */
  datatype Reply = Threw | Answered(record: Option<HistoryRecord>)

  /** The `for (const nodeId in outputs)` loop: the first image of the first
      node, in iteration order, whose image list is not empty. */
  function SelectArtifact(outputs: seq<(string, NodeOutput)>): (r: Option<Image>)
    ensures r.None? <==> forall i :: 0 <= i < |outputs| ==> |outputs[i].1.images| == 0
    ensures r.Some? ==>
      exists i :: && 0 <= i < |outputs|
                  && |outputs[i].1.images| > 0
                  && r.value == outputs[i].1.images[0]
                  && forall j :: 0 <= j < i ==> |outputs[j].1.images| == 0
  {
    if |outputs| == 0 then None
    else if |outputs[0].1.images| > 0 then Some(outputs[0].1.images[0])
    else
      var r := SelectArtifact(outputs[1..]);
      assert forall i :: 1 <= i < |outputs| ==> outputs[i] == outputs[1..][i - 1];
      r
  }

  /** Once a node with images is found, nodes after it make no difference. */
  lemma {:induction false} SelectIgnoresLaterNodes(outputs: seq<(string, NodeOutput)>, later: seq<(string, NodeOutput)>)
    requires SelectArtifact(outputs).Some?
    ensures SelectArtifact(outputs + later) == SelectArtifact(outputs)
  {
    if |outputs[0].1.images| == 0 {
      assert (outputs + later)[1..] == outputs[1..] + later;
      SelectIgnoresLaterNodes(outputs[1..], later);
    }
  }

  /** `history[promptId] && history[promptId].outputs`. */
  predicate HasOutputs(reply: Reply) {
    reply.Answered? && reply.record.Some? && reply.record.value.outputs.Some?
  }

  /** The artifact one check displays, if any: there is one exactly when the
      record has outputs and some node has images, and it is the first image
      of the first such node. */
  function ArtifactOf(reply: Reply): (r: Option<Image>)
    ensures r.Some? <==>
      && HasOutputs(reply)
      && exists i :: 0 <= i < |reply.record.value.outputs.value|
                     && |reply.record.value.outputs.value[i].1.images| > 0
    ensures r.Some? ==>
      var outs := reply.record.value.outputs.value;
      exists i :: && 0 <= i < |outs|
                  && |outs[i].1.images| > 0
                  && r.value == outs[i].1.images[0]
                  && forall j :: 0 <= j < i ==> |outs[j].1.images| == 0
  {
    match reply
    case Threw => None
    case Answered(record) =>
      if record.Some? && record.value.outputs.Some? then SelectArtifact(record.value.outputs.value)
      else None
  }

  /** Clock readings of successive checks: the first is taken at or after the
      start, and each rescheduled check runs at least one delay later. */
  predicate Paced(start: int, ticks: seq<int>) {
    && (|ticks| > 0 ==> ticks[0] >= start)
    && forall k :: 0 <= k < |ticks| - 1 ==> ticks[k + 1] >= ticks[k] + RetryDelayMs
  }

  lemma {:induction false} PacedLowerBound(start: int, ticks: seq<int>, k: nat)
    requires Paced(start, ticks) && k < |ticks|
    ensures ticks[k] >= start + RetryDelayMs * k
  {
    if k > 0 {
      PacedLowerBound(start, ticks, k - 1);
    }
  }

  datatype PollEnd = Displayed(image: Image) | TimedOut | StillPolling

  /** The checks of one poll loop. `ticks[k]` is `Date.now()` at check `k`
      and `replies[k]` what its query returns. The loop ends with an image,
      silently at the timeout, or is still running when the readings run out. */
  method PollLoop(start: int, ticks: seq<int>, replies: seq<Reply>) returns (outcome: PollEnd, queries: nat)
    requires |replies| == |ticks|
    requires Paced(start, ticks)
    ensures queries <= |ticks| && queries <= TimeoutMs / RetryDelayMs + 1
    ensures forall k :: 0 <= k < queries ==> ticks[k] - start <= TimeoutMs
    ensures outcome.Displayed? ==>
      && queries >= 1
      && ArtifactOf(replies[queries - 1]) == Some(outcome.image)
      && forall k :: 0 <= k < queries - 1 ==> ArtifactOf(replies[k]).None?
    ensures !outcome.Displayed? ==> forall k :: 0 <= k < queries ==> ArtifactOf(replies[k]).None?
    ensures outcome.TimedOut? <==> queries < |ticks| && !outcome.Displayed?
    ensures outcome.TimedOut? ==> ticks[queries] - start > TimeoutMs
    ensures outcome.StillPolling? ==> queries == |ticks|
  {
    var k := 0;
    while k < |ticks|
      invariant 0 <= k <= |ticks|
      invariant forall j :: 0 <= j < k ==> ticks[j] - start <= TimeoutMs
      invariant forall j :: 0 <= j < k ==> ArtifactOf(replies[j]).None?
      invariant k <= TimeoutMs / RetryDelayMs + 1
      decreases |ticks| - k
    {
      if ticks[k] - start > TimeoutMs {
        return TimedOut, k;
      }
      PacedLowerBound(start, ticks, k);
      var found := ArtifactOf(replies[k]);
      if found.Some? {
        return Displayed(found.value), k + 1;
      }
      k := k + 1;
    }
    return StillPolling, k;
  }
}

=== FILE: substitution.dfy ===
/** `String.prototype.replace` with a global regular expression that matches a
    fixed token and a string replacement, including the `$` patterns the
    replacement string may contain. */
module Substitution {
  import opened Text

  /** GetSubstitution (section 22.1.3.19.1 of ECMA-262, 2024 edition) for a
      pattern without capture groups: `$$` gives `$`, `$&` the matched text,
      `` $` `` the text before the match and `$'` the text after it. Every
      other `$` (including `$1` and `$<`) stands for itself. */
  function Expand(tpl: string, matched: string, before: string, after: string): string
    decreases |tpl|
  {
    if |tpl| == 0 then ""
    else if tpl[0] == '$' && |tpl| >= 2 && tpl[1] in "$&`'" then
      var piece :=
        if tpl[1] == '$' then "$"
        else if tpl[1] == '&' then matched
        else if tpl[1] == '`' then before
        else after;
      piece + Expand(tpl[2..], matched, before, after)
    else [tpl[0]] + Expand(tpl[1..], matched, before, after)
  }

  /** No `$` of `tpl` is followed by one of the four pattern characters. */
  predicate NoPatterns(tpl: string) {
    forall i :: 0 <= i < |tpl| - 1 && tpl[i] == '$' ==> tpl[i + 1] !in "$&`'"
  }

  /** A replacement without `$` patterns is inserted literally. */
  lemma {:induction false} ExpandPlain(tpl: string, matched: string, before: string, after: string)
    requires NoPatterns(tpl)
    ensures Expand(tpl, matched, before, after) == tpl
  {
    if |tpl| > 0 {
      assert NoPatterns(tpl[1..]) by {
        forall i | 0 <= i < |tpl[1..]| - 1 && tpl[1..][i] == '$'
          ensures tpl[1..][i + 1] !in "$&`'"
        {
          assert tpl[i + 1] == '$';
        }
      }
      ExpandPlain(tpl[1..], matched, before, after);
      assert [tpl[0]] + tpl[1..] == tpl;
    }
  }

  /** `s.replace(/tok/g, tpl)` on the part of `s` from index `i` on: matches
      are found left to right and do not overlap. */
  function ReplaceFrom(s: string, tok: string, tpl: string, i: nat): string
    requires |tok| > 0 && i <= |s|
    decreases |s| - i
  {
    if i + |tok| > |s| then s[i..]
    else if s[i..i + |tok|] == tok then
      Expand(tpl, tok, s[..i], s[i + |tok|..]) + ReplaceFrom(s, tok, tpl, i + |tok|)
    else [s[i]] + ReplaceFrom(s, tok, tpl, i + 1)
  }

  function ReplaceAll(s: string, tok: string, tpl: string): string
    requires |tok| > 0
  {
    ReplaceFrom(s, tok, tpl, 0)
  }

  /** With no match left, the rest of the text is copied unchanged. */
  lemma {:induction false} ReplaceFromAbsent(s: string, tok: string, tpl: string, i: nat)
    requires |tok| > 0 && i <= |s|
    requires forall p :: i <= p <= |s| ==> !OccursAt(s, tok, p)
    ensures ReplaceFrom(s, tok, tpl, i) == s[i..]
    decreases |s| - i
  {
    if i + |tok| <= |s| {
      assert !OccursAt(s, tok, i);
      ReplaceFromAbsent(s, tok, tpl, i + 1);
      assert [s[i]] + s[i + 1..] == s[i..];
    }
  }

  /** A text without the token comes back unchanged. */
  lemma ReplaceAllAbsent(s: string, tok: string, tpl: string)
    requires |tok| > 0
    requires !Contains(s, tok)
    ensures ReplaceAll(s, tok, tpl) == s
  {
    ReplaceFromAbsent(s, tok, tpl, 0);
  }

  /** True when no character of `r` occurs in `t`. */
  predicate Disjoint(r: string, t: string) {
    forall c :: c in r ==> c !in t
  }

  /** A prefix of the output either copies the input verbatim or holds a
      character of the replacement. */
  lemma {:induction false} PrefixCopiedOrReplaced(s: string, tok: string, r: string, i: nat, m: nat)
    requires |tok| > 0 && i <= |s|
    requires '$' !in r && |r| > 0
    requires m <= |ReplaceFrom(s, tok, r, i)|
    ensures || (i + m <= |s| && ReplaceFrom(s, tok, r, i)[..m] == s[i..i + m])
            || (exists q :: 0 <= q < m && ReplaceFrom(s, tok, r, i)[q] in r)
    decreases |s| - i
  {
    var out := ReplaceFrom(s, tok, r, i);
    if m == 0 {
    } else if i + |tok| > |s| {
      assert out == s[i..];
    } else if s[i..i + |tok|] == tok {
      ExpandPlain(r, tok, s[..i], s[i + |tok|..]);
      assert out[0] == r[0];
    } else {
      var rest := ReplaceFrom(s, tok, r, i + 1);
      assert out == [s[i]] + rest;
      PrefixCopiedOrReplaced(s, tok, r, i + 1, m - 1);
      if i + 1 + (m - 1) <= |s| && rest[..m - 1] == s[i + 1..i + m] {
        assert out[..m] == [s[i]] + rest[..m - 1];
        assert s[i..i + m] == [s[i]] + s[i + 1..i + m];
      } else {
        var q :| 0 <= q < m - 1 && rest[q] in r;
        assert out[q + 1] == rest[q];
      }
    }
  }

  lemma DisjointAt(r: string, t: string, a: int, b: int)
    requires Disjoint(r, t) && 0 <= a < |r| && 0 <= b < |t|
    ensures r[a] != t[b]
  {
    assert r[a] in r;
  }

  /** An occurrence of `t` holds no character of `r` when the two share none. */
  lemma OccurrenceHoldsNoReplacementChar(out: string, t: string, r: string, k: int)
    requires Disjoint(r, t) && OccursAt(out, t, k)
    ensures forall q :: k <= q < k + |t| ==> out[q] !in r
  {
    forall q | k <= q < k + |t|
      ensures out[q] !in r
    {
      assert out[q] == out[k..k + |t|][q - k] == t[q - k];
    }
  }

  /** No occurrence of `t` starts inside an inserted replacement. */
  lemma NoOccurrenceInsideReplacement(r: string, rest: string, t: string)
    requires |t| > 0 && Disjoint(r, t)
    ensures forall q :: 0 <= q < |r| ==> !OccursAt(r + rest, t, q)
  {
    forall q | 0 <= q < |r|
      ensures !OccursAt(r + rest, t, q)
    {
      if q + |t| <= |r + rest| {
        assert (r + rest)[q..q + |t|][0] == r[q];
        DisjointAt(r, t, q, 0);
      }
    }
  }

  lemma OccurrenceShifts(a: string, rest: string, t: string, k: int)
    requires OccursAt(a + rest, t, k) && k >= |a|
    ensures OccursAt(rest, t, k - |a|)
  {
    assert rest[k - |a|..k - |a| + |t|] == (a + rest)[k..k + |t|];
  }

  lemma OccurrenceInSuffix(s: string, i: nat, t: string, k: int)
    requires i <= |s| && OccursAt(s[i..], t, k)
    ensures OccursAt(s, t, i + k)
  {
    forall m | 0 <= m < |t|
      ensures s[i + k..i + k + |t|][m] == t[m]
    {
      assert s[i + k + m] == s[i..][k + m] == s[i..][k..k + |t|][m];
    }
    assert s[i + k..i + k + |t|] == t;
  }

  /** Replacing a token by text that shares no character with `t` and has no
      `$` creates no new occurrence of `t`: every occurrence of `t` in the
      output was already in the input, and the token itself never survives. */
  lemma {:induction false} NoNewOccurrence(s: string, tok: string, r: string, i: nat, t: string, k: int)
    requires |tok| > 0 && i <= |s|
    requires '$' !in r && |r| > 0
    requires |t| > 0 && Disjoint(r, t)
    requires OccursAt(ReplaceFrom(s, tok, r, i), t, k)
    ensures t != tok
    ensures exists p :: i <= p <= |s| && OccursAt(s, t, p)
    decreases |s| - i, 1
  {
    if i + |tok| > |s| {
      assert ReplaceFrom(s, tok, r, i) == s[i..];
      OccurrenceInSuffix(s, i, t, k);
    } else if s[i..i + |tok|] == tok {
      ExpandPlain(r, tok, s[..i], s[i + |tok|..]);
      var rest := ReplaceFrom(s, tok, r, i + |tok|);
      assert ReplaceFrom(s, tok, r, i) == r + rest;
      NoOccurrenceInsideReplacement(r, rest, t);
      OccurrenceShifts(r, rest, t, k);
      NoNewOccurrence(s, tok, r, i + |tok|, t, k - |r|);
    } else {
      NoNewOccurrenceAfterCopy(s, tok, r, i, t, k);
    }
  }

  /** The case where the character at `i` is copied to the output. */
  lemma {:induction false} NoNewOccurrenceAfterCopy(s: string, tok: string, r: string, i: nat, t: string, k: int)
    requires |tok| > 0 && i + |tok| <= |s| && s[i..i + |tok|] != tok
    requires '$' !in r && |r| > 0
    requires |t| > 0 && Disjoint(r, t)
    requires OccursAt(ReplaceFrom(s, tok, r, i), t, k)
    ensures t != tok
    ensures exists p :: i <= p <= |s| && OccursAt(s, t, p)
    decreases |s| - i, 0
  {
    var out := ReplaceFrom(s, tok, r, i);
    var rest := ReplaceFrom(s, tok, r, i + 1);
    assert out == [s[i]] + rest;
    if k > 0 {
      OccurrenceShifts([s[i]], rest, t, k);
      NoNewOccurrence(s, tok, r, i + 1, t, k - 1);
    } else {
      OccurrenceAtCopiedChar(s, tok, r, i, t);
    }
  }

  /** An occurrence that starts at a copied character lies wholly in the input. */
  lemma OccurrenceAtCopiedChar(s: string, tok: string, r: string, i: nat, t: string)
    requires |tok| > 0 && i < |s|
    requires '$' !in r && |r| > 0
    requires |t| > 0 && Disjoint(r, t)
    requires ReplaceFrom(s, tok, r, i) == [s[i]] + ReplaceFrom(s, tok, r, i + 1)
    requires OccursAt(ReplaceFrom(s, tok, r, i), t, 0)
    ensures OccursAt(s, t, i)
  {
    var out := ReplaceFrom(s, tok, r, i);
    var rest := ReplaceFrom(s, tok, r, i + 1);
    PrefixCopiedOrReplaced(s, tok, r, i + 1, |t| - 1);
    OccurrenceHoldsNoReplacementChar(out, t, r, 0);
    assert forall q :: 0 <= q < |t| - 1 ==> rest[q] == out[q + 1];
    assert i + |t| <= |s| && rest[..|t| - 1] == s[i + 1..i + |t|];
    assert out[..|t|] == [s[i]] + rest[..|t| - 1];
    assert s[i..i + |t|] == [s[i]] + s[i + 1..i + |t|];
  }

  /** The occurrence lemma stated for the whole text, as an implication. */
  lemma OccurrenceInOutput(s: string, tok: string, r: string, t: string, k: int)
    requires |tok| > 0 && '$' !in r && |r| > 0
    requires |t| > 0 && Disjoint(r, t)
    ensures OccursAt(ReplaceAll(s, tok, r), t, k) ==> t != tok && Contains(s, t)
  {
    if OccursAt(ReplaceAll(s, tok, r), t, k) {
      NoNewOccurrence(s, tok, r, 0, t, k);
    }
  }

  /** A global replace by `$`-free text sharing no character with the token
      leaves no occurrence of the token behind. */
  lemma ReplaceAllRemovesToken(s: string, tok: string, r: string)
    requires |tok| > 0 && '$' !in r && |r| > 0 && Disjoint(r, tok)
    ensures !Contains(ReplaceAll(s, tok, r), tok)
  {
    forall k | 0 <= k <= |ReplaceAll(s, tok, r)|
      ensures !OccursAt(ReplaceAll(s, tok, r), tok, k)
    {
      OccurrenceInOutput(s, tok, r, tok, k);
    }
  }

  /** Such a replace does not create an occurrence of another text `t` that
      shares no character with the replacement. */
  lemma ReplaceAllKeepsAbsent(s: string, tok: string, r: string, t: string)
    requires |tok| > 0 && '$' !in r && |r| > 0
    requires |t| > 0 && Disjoint(r, t) && !Contains(s, t)
    ensures !Contains(ReplaceAll(s, tok, r), t)
  {
    forall k | 0 <= k <= |ReplaceAll(s, tok, r)|
      ensures !OccursAt(ReplaceAll(s, tok, r), t, k)
    {
      OccurrenceInOutput(s, tok, r, t, k);
    }
  }
}

=== FILE: text.dfy ===
/** Substring search, `Array.prototype.join` and splitting on one character. */
module Text {

  /** `t` occurs in `s` starting at index `k`. */
  predicate OccursAt(s: string, t: string, k: int) {
    0 <= k && k + |t| <= |s| && s[k..k + |t|] == t
  }

  /** `s.includes(t)`. */
  predicate Contains(s: string, t: string) {
    exists k :: 0 <= k <= |s| && OccursAt(s, t, k)
  }

  lemma ContainsMiddle(a: string, b: string, c: string)
    ensures Contains(a + b + c, b)
  {
    assert (a + b + c)[|a|..|a| + |b|] == b;
    assert OccursAt(a + b + c, b, |a|);
  }

  lemma ContainsTransitive(a: string, b: string, c: string)
    requires Contains(a, b) && Contains(b, c)
    ensures Contains(a, c)
  {
    var i :| 0 <= i <= |a| && OccursAt(a, b, i);
    var j :| 0 <= j <= |b| && OccursAt(b, c, j);
    assert a[i..i + |b|] == b;
    forall m | 0 <= m < |c|
      ensures a[i + j..i + j + |c|][m] == c[m]
    {
      assert a[i + j + m] == a[i..i + |b|][j + m] == b[j..j + |c|][m];
    }
    assert a[i + j..i + j + |c|] == c;
    assert OccursAt(a, c, i + j);
  }

  /** `parts.join(sep)`. */
  function Join(parts: seq<string>, sep: string): string {
    if |parts| == 0 then ""
    else if |parts| == 1 then parts[0]
    else parts[0] + sep + Join(parts[1..], sep)
  }

  /** Every part of a join occurs in the joined text. */
  lemma {:induction false} JoinContainsPart(parts: seq<string>, sep: string, i: nat)
    requires i < |parts|
    ensures Contains(Join(parts, sep), parts[i])
  {
    if |parts| == 1 {
      ContainsMiddle("", parts[0], "");
      assert "" + parts[0] + "" == parts[0];
    } else if i == 0 {
      ContainsMiddle("", parts[0], sep + Join(parts[1..], sep));
      assert "" + parts[0] + (sep + Join(parts[1..], sep)) == Join(parts, sep);
    } else {
      JoinContainsPart(parts[1..], sep, i - 1);
      ContainsMiddle(parts[0] + sep, Join(parts[1..], sep), "");
      assert parts[0] + sep + Join(parts[1..], sep) + "" == Join(parts, sep);
      ContainsTransitive(Join(parts, sep), Join(parts[1..], sep), parts[i]);
    }
  }

  /** `s.split(c)` for a one-character separator. */
  function Split(s: string, c: char): (r: seq<string>)
    ensures |r| >= 1
  {
    if |s| == 0 then [""]
    else
      var rest := Split(s[1..], c);
      if s[0] == c then [""] + rest else [[s[0]] + rest[0]] + rest[1..]
  }

  lemma {:induction false} SplitAfterPlainPrefix(p: string, s: string, c: char)
    requires c !in p
    ensures Split(p + s, c) == [p + Split(s, c)[0]] + Split(s, c)[1..]
  {
    if |p| > 0 {
      assert (p + s)[1..] == p[1..] + s;
      SplitAfterPlainPrefix(p[1..], s, c);
      assert [p[0]] + (p[1..] + Split(s, c)[0]) == p + Split(s, c)[0];
    } else {
      assert p + s == s;
      assert p + Split(s, c)[0] == Split(s, c)[0];
      assert Split(s, c) == [Split(s, c)[0]] + Split(s, c)[1..];
    }
  }

  /** Splitting a join on its separator gives the parts back, provided no part
      contains the separator. */
  lemma {:induction false} SplitJoin(parts: seq<string>, c: char)
    requires |parts| >= 1
    requires forall i :: 0 <= i < |parts| ==> c !in parts[i]
    ensures Split(Join(parts, [c]), c) == parts
  {
    if |parts| == 1 {
      SplitAfterPlainPrefix(parts[0], "", c);
      assert parts[0] + "" == parts[0];
    } else {
      var tail := Join(parts[1..], [c]);
      SplitJoin(parts[1..], c);
      assert ([c] + tail)[1..] == tail;
      assert Split([c] + tail, c) == [""] + parts[1..];
      assert Join(parts, [c]) == parts[0] + ([c] + tail);
      SplitAfterPlainPrefix(parts[0], [c] + tail, c);
      assert parts[0] + "" == parts[0];
      assert ([""] + parts[1..])[1..] == parts[1..];
      assert parts == [parts[0]] + parts[1..];
    }
  }
}

=== FILE: upload.dfy ===
/** `ComfyManager.uploadCharacterImage`: which requests it makes and what it
    returns, with every network answer given as a parameter. */
module Upload {
  import opened Wrappers
  import opened Decimal

  /** `SillyTavern.this_chid`: unset, an array index, or an index held as a string. */
  datatype CharId = Unset | Index(n: nat) | Key(s: string)

  /** The negation of `!this_chid && this_chid !== 0`: index 0 counts as a
      selected character although it is falsy. */
  predicate Selected(chid: CharId)
    ensures chid.Index? ==> Selected(chid)
    ensures chid == Unset || chid == Key("") ==> !Selected(chid)
  {
    match chid
    case Unset => false
    case Index(_) => true
    case Key(s) => s != ""
  }

  /** `${this_chid}` in a template literal. */
  function ChidText(chid: CharId): string
    requires Selected(chid)
  {
    match chid
    case Index(n) => NatText(n)
    case Key(s) => s
  }

  predicate StartsWith(s: string, p: string) {
    |p| <= |s| && s[..|p|] == p
  }

  /** `charUrl.startsWith('http') ? charUrl : `/${charUrl}``: a relative avatar
      path is made root-relative; an absolute URL is kept. */
  function AvatarUrl(avatar: string): (url: string)
    ensures |url| >= |avatar| && url[|url| - |avatar|..] == avatar
    ensures StartsWith(url, "http") || (|url| > 0 && url[0] == '/')
    ensures StartsWith(avatar, "http") <==> url == avatar
    ensures !StartsWith(avatar, "http") ==> |url| == |avatar| + 1 && url[0] == '/'
  {
    if StartsWith(avatar, "http") then avatar else "/" + avatar
  }

  /** The fixed file name under which a character's avatar is uploaded. */
  function UploadFilename(chid: CharId): string
    requires Selected(chid)
  {
    "st_char_" + ChidText(chid) + ".png"
  }

  /** Different character indices never share a file name, so each upload
      overwrites only that character's earlier copy. */
  lemma UploadFilenameInjective(a: nat, b: nat)
    requires UploadFilename(Index(a)) == UploadFilename(Index(b))
    ensures a == b
  {
    var fa, fb := UploadFilename(Index(a)), UploadFilename(Index(b));
    assert fa[8..|fa| - 4] == NatText(a);
    assert fb[8..|fb| - 4] == NatText(b);
    NatTextInjective(a, b);
  }

  /** The requests the helper sends. */
  datatype Request =
    | FetchAvatar(url: string)
    | PostImage(url: string, filename: string, overwrite: string, kind: string)

  /** Outcome of `fetch(fullUrl)` followed by `res.blob()`. An HTTP error
      status is not a failure here: its body is uploaded like any image. */
  datatype AvatarFetch = AvatarNetworkError | AvatarBody

  /** `json.name` of the upload response, absent when the field is missing. */
  datatype UploadBody = UploadBody(name: Option<string>)

  /** Outcome of the POST to `/upload/image` and of `uploadRes.json()`;
      `body` is `None` when the response is not JSON. */
  datatype UploadResponse = UploadNetworkError | UploadAnswer(ok: bool, body: Option<UploadBody>)

  /** What the promise settles to: a value (`null` and `undefined` are `None`),
      or a rejection for an error thrown before the `try` block. */
  datatype UploadOutcome = Returned(name: Option<string>) | Rejected

  datatype UploadRun = UploadRun(requests: seq<Request>, outcome: UploadOutcome)

  /** One call. `avatar` is `characters[this_chid].avatar`, `None` when the
      entry or its avatar is missing. */
  function UploadCharacterImage(chid: CharId, avatar: Option<string>, comfyUrl: string,
                                fetched: AvatarFetch, response: UploadResponse): (r: UploadRun)
    ensures !Selected(chid) ==> r == UploadRun([], Returned(None))
    ensures Selected(chid) && avatar.None? ==> r == UploadRun([], Rejected)
    ensures r.outcome.Rejected? ==> Selected(chid) && avatar.None?
    ensures r.outcome == Returned(None) <==>
      || !Selected(chid)
      || (avatar.Some? && (|| fetched.AvatarNetworkError?
                           || response.UploadNetworkError?
                           || !response.ok
                           || response.body.None?
                           || response.body.value.name.None?))
    ensures r.outcome.Returned? && r.outcome.name.Some? ==>
      && |r.requests| == 2
      && r.requests[0] == FetchAvatar(AvatarUrl(avatar.value))
      && r.requests[1] == PostImage(comfyUrl + "/upload/image", UploadFilename(chid), "true", "input")
      && r.outcome.name == response.body.value.name
    ensures |r.requests| <= 2
  {
    if !Selected(chid) then UploadRun([], Returned(None))
    else if avatar.None? then UploadRun([], Rejected)
    else
      var get := FetchAvatar(AvatarUrl(avatar.value));
      if fetched.AvatarNetworkError? then UploadRun([get], Returned(None))
      else
        var post := PostImage(comfyUrl + "/upload/image", UploadFilename(chid), "true", "input");
        match response
        case UploadNetworkError => UploadRun([get, post], Returned(None))
        case UploadAnswer(ok, body) =>
          if !ok || body.None? then UploadRun([get, post], Returned(None))
          else UploadRun([get, post], Returned(body.value.name))
  }
}

=== FILE: workflow.dfy ===
/** `ComfyManager.processWorkflow`: placeholder substitution on the serialised
    workflow, parsing, and the reference-image rewrite on the parsed graph. */
module Workflow {
  import opened Wrappers
  import opened Decimal
  import opened Text
  import opened Json
  import opened Substitution

  const SeedToken := "$Seed$"
  const WidthToken := "$Width$"
  const HeightToken := "$Height$"
  const ContextToken := "$LLMCONTEXT$"
  const ImageMarker := "$CharImage$"

  /** Exclusive upper bound of the seed: `Math.floor(Math.random() * 10000000000)`. */
  const SeedRange := 10000000000

  /** The seed drawn from one `Math.random()` value `u`. Rounding of the
      floating-point product is not modelled. */
  function SeedFromRandom(u: real): (seed: nat)
    requires 0.0 <= u < 1.0
    ensures seed < SeedRange
  {
    (u * SeedRange as real).Floor
  }

  // ---------------------------------------------------------------------
  // Escaping the context
  // ---------------------------------------------------------------------

  predicate IsBreak(c: char) {
    c == '\r' || c == '\n'
  }

  predicate NoBreaks(s: string) {
    forall i :: 0 <= i < |s| ==> !IsBreak(s[i])
  }

  /** Length of the run of carriage returns and line feeds at the start of `s`. */
  function BreakRun(s: string): (n: nat)
    ensures n <= |s|
    ensures forall j :: 0 <= j < n ==> IsBreak(s[j])
    ensures n == |s| || !IsBreak(s[n])
  {
    if |s| == 0 || !IsBreak(s[0]) then 0 else 1 + BreakRun(s[1..])
  }

  /** `s.replace(/[\r\n]+/g, '\\n')`: every maximal run of carriage returns
      and line feeds becomes the two characters backslash and `n`. */
  function CollapseBreaks(s: string): (r: string)
    ensures NoBreaks(r)
    decreases |s|
  {
    if |s| == 0 then ""
    else if IsBreak(s[0]) then
      var rest := CollapseBreaks(s[BreakRun(s)..]);
      assert forall i :: 0 <= i < |rest| ==> rest[i] == ("\\n" + rest)[i + 2];
      "\\n" + rest
    else
      var rest := CollapseBreaks(s[1..]);
      assert forall i :: 0 <= i < |rest| ==> rest[i] == ([s[0]] + rest)[i + 1];
      [s[0]] + rest
  }

  /** Text without line breaks passes through unchanged. */
  lemma {:induction false} CollapsePlainPrefix(p: string, q: string)
    requires NoBreaks(p)
    ensures CollapseBreaks(p + q) == p + CollapseBreaks(q)
  {
    if |p| > 0 {
      assert (p + q)[1..] == p[1..] + q;
      CollapsePlainPrefix(p[1..], q);
      assert [p[0]] + (p[1..] + CollapseBreaks(q)) == p + CollapseBreaks(q);
    } else {
      assert p + q == q;
    }
  }

  /** A whole run of breaks, of any length, becomes one `\n` escape. */
  lemma CollapseRun(run: string, q: string)
    requires |run| > 0 && forall i :: 0 <= i < |run| ==> IsBreak(run[i])
    requires |q| == 0 || !IsBreak(q[0])
    ensures CollapseBreaks(run + q) == "\\n" + CollapseBreaks(q)
  {
    var s := run + q;
    assert forall j :: 0 <= j < |run| ==> s[j] == run[j];
    assert |q| == 0 || s[|run|] == q[0];
    assert BreakRun(s) == |run|;
    assert s[|run|..] == q;
  }

  /** `s.replace(/"/g, '\\"')`: a backslash is put before every double quote. */
  function EscapeQuotes(s: string): (r: string)
    ensures forall c :: c != '\\' && c != '"' ==> (c in r <==> c in s)
  {
    if |s| == 0 then ""
    else if s[0] == '"' then "\\\"" + EscapeQuotes(s[1..])
    else [s[0]] + EscapeQuotes(s[1..])
  }

  /** Each double quote becomes a backslash followed by the quote, wherever it
      stands and whatever precedes it. */
  lemma {:induction false} EscapeQuotesQuote(p: string, q: string)
    requires '"' !in p
    ensures EscapeQuotes(p + "\"" + q) == p + "\\\"" + EscapeQuotes(q)
  {
    if |p| == 0 {
      assert p + "\"" + q == "\"" + q;
      assert ("\"" + q)[1..] == q;
    } else {
      assert (p + "\"" + q)[1..] == p[1..] + "\"" + q;
      EscapeQuotesQuote(p[1..], q);
      assert [p[0]] + (p[1..] + "\\\"" + EscapeQuotes(q)) == p + "\\\"" + EscapeQuotes(q);
    }
  }

  /** Removes the backslash of every `\"` pair, reading left to right. */
  function UnescapeQuotes(s: string): string {
    if |s| == 0 then ""
    else if |s| >= 2 && s[0] == '\\' && s[1] == '"' then "\"" + UnescapeQuotes(s[2..])
    else [s[0]] + UnescapeQuotes(s[1..])
  }

  /** Quote escaping loses nothing: removing the inserted backslashes gives
      the original text back, even when the text holds its own backslashes. */
  lemma {:induction false} UnescapeEscapeQuotes(s: string)
    ensures UnescapeQuotes(EscapeQuotes(s)) == s
  {
    if |s| > 0 {
      var e := EscapeQuotes(s);
      UnescapeEscapeQuotes(s[1..]);
      if s[0] == '"' {
        assert e[2..] == EscapeQuotes(s[1..]);
      } else {
        assert e[1..] == EscapeQuotes(s[1..]);
        if |s| >= 2 {
          assert |s[1..]| > 0;
          assert e[1] != '"';
        }
      }
      assert [s[0]] + s[1..] == s;
    }
  }

  /** The `safeContext` of the script: breaks collapsed, then quotes escaped. */
  function EscapeContext(context: string): (r: string)
    ensures NoBreaks(r)
  {
    var collapsed := CollapseBreaks(context);
    var r := EscapeQuotes(collapsed);
    assert forall i :: 0 <= i < |r| ==> r[i] in r;
    r
  }

  /** Every double quote of the escaped context is preceded by a backslash,
      and its quotes are exactly those of the context once breaks collapse. */
  lemma EscapeContextQuotes(context: string)
    ensures UnescapeQuotes(EscapeContext(context)) == CollapseBreaks(context)
  {
    UnescapeEscapeQuotes(CollapseBreaks(context));
  }

  predicate IsHex(c: char) {
    '0' <= c <= '9' || 'a' <= c <= 'f' || 'A' <= c <= 'F'
  }

  /** The characters allowed between the quotes of a JSON string (section 7
      of RFC 8259): no raw quote or control character, and every backslash
      starts a valid escape. */
  predicate JsonStringBody(s: string)
    decreases |s|
  {
    if |s| == 0 then true
    else if s[0] == '\\' then
      || (|s| >= 2 && s[1] in "\"\\/bfnrt" && JsonStringBody(s[2..]))
      || (|s| >= 6 && s[1] == 'u' && IsHex(s[2]) && IsHex(s[3]) && IsHex(s[4]) && IsHex(s[5])
          && JsonStringBody(s[6..]))
    else s[0] != '"' && s[0] >= ' ' && JsonStringBody(s[1..])
  }

  /** Text whose only backslashes are the `\n` escapes of collapsed breaks. */
  predicate OnlyBreakEscapes(t: string)
    decreases |t|
  {
    if |t| == 0 then true
    else if t[0] == '\\' then |t| >= 2 && t[1] == 'n' && OnlyBreakEscapes(t[2..])
    else t[0] >= ' ' && OnlyBreakEscapes(t[1..])
  }

  lemma {:induction false} CollapseOnlyBreakEscapes(s: string)
    requires forall i :: 0 <= i < |s| ==> s[i] != '\\' && (s[i] >= ' ' || IsBreak(s[i]))
    ensures OnlyBreakEscapes(CollapseBreaks(s))
    decreases |s|
  {
    if |s| > 0 {
      if IsBreak(s[0]) {
        CollapseOnlyBreakEscapes(s[BreakRun(s)..]);
        assert ("\\n" + CollapseBreaks(s[BreakRun(s)..]))[2..] == CollapseBreaks(s[BreakRun(s)..]);
      } else {
        CollapseOnlyBreakEscapes(s[1..]);
        assert ([s[0]] + CollapseBreaks(s[1..]))[1..] == CollapseBreaks(s[1..]);
      }
    }
  }

  lemma {:induction false} EscapeQuotesMakesStringBody(t: string)
    requires OnlyBreakEscapes(t)
    ensures JsonStringBody(EscapeQuotes(t))
    decreases |t|
  {
    if |t| > 0 {
      var e := EscapeQuotes(t);
      if t[0] == '\\' {
        EscapeQuotesMakesStringBody(t[2..]);
        assert e == ['\\', 'n'] + EscapeQuotes(t[2..]);
        assert e[2..] == EscapeQuotes(t[2..]);
      } else if t[0] == '"' {
        EscapeQuotesMakesStringBody(t[1..]);
        assert e[2..] == EscapeQuotes(t[1..]);
      } else {
        EscapeQuotesMakesStringBody(t[1..]);
        assert e[1..] == EscapeQuotes(t[1..]);
      }
    }
  }

  /** When the context holds no backslash and no control character other than
      carriage return and line feed, its escaped form can sit between the
      quotes of a JSON string. */
  lemma EscapedContextFitsJsonString(context: string)
    requires forall i :: 0 <= i < |context| ==>
      context[i] != '\\' && (context[i] >= ' ' || IsBreak(context[i]))
    ensures JsonStringBody(EscapeContext(context))
  {
    CollapseOnlyBreakEscapes(context);
    EscapeQuotesMakesStringBody(CollapseBreaks(context));
  }

  /** Backslashes are not escaped: a context ending in one backslash yields
      text that would swallow the closing quote of the template's string. */
  lemma BackslashBreaksJsonString()
    ensures EscapeContext("\\") == "\\"
    ensures !JsonStringBody(EscapeContext("\\"))
  {
  }

  /** Other control characters are not escaped either: a tab in the context
      reaches the template's JSON string raw, which JSON forbids. */
  lemma TabBreaksJsonString()
    ensures EscapeContext("a\tb") == "a\tb"
    ensures !JsonStringBody(EscapeContext("a\tb"))
  {
    EscapeContextPlain("a\tb");
  }

  // ---------------------------------------------------------------------
  // Token substitution
  // ---------------------------------------------------------------------

  /** The four global replaces of the script, in their order. */
  function ResolveTokens(text: string, seed: string, width: string, height: string, context: string): string {
    var a := ReplaceAll(text, SeedToken, seed);
    var b := ReplaceAll(a, WidthToken, width);
    var c := ReplaceAll(b, HeightToken, height);
    ReplaceAll(c, ContextToken, context)
  }

  predicate Resolved(text: string) {
    && !Contains(text, SeedToken)
    && !Contains(text, WidthToken)
    && !Contains(text, HeightToken)
    && !Contains(text, ContextToken)
  }

  /** Text that holds none of the four tokens comes back unchanged, whatever
      the values, so resolving resolved text is a no-op. */
  lemma ResolveResolved(text: string, seed: string, width: string, height: string, context: string)
    requires Resolved(text)
    ensures ResolveTokens(text, seed, width, height, context) == text
  {
    ReplaceAllAbsent(text, SeedToken, seed);
    ReplaceAllAbsent(text, WidthToken, width);
    ReplaceAllAbsent(text, HeightToken, height);
    ReplaceAllAbsent(text, ContextToken, context);
  }

  lemma NumberTextAvoids(x: JsInt, t: string)
    requires forall k :: 0 <= k < |t| ==> !IsDigit(t[k]) && t[k] !in "-Na"
    ensures '$' !in JsIntText(x) && |JsIntText(x)| > 0 && Disjoint(JsIntText(x), t)
  {
    var r := JsIntText(x);
    forall c | c in r
      ensures c !in t
    {
      var k :| 0 <= k < |r| && r[k] == c;
      assert IsDigit(r[k]) || r[k] in "-Na";
    }
  }

  /** The seed, width and height passes insert numerals, which cannot form a
      token: after them none of the three numeric tokens is left, whatever
      the template. */
  lemma NumericTokensGone(text: string, seed: nat, width: JsInt, height: JsInt)
    ensures var a := ReplaceAll(text, SeedToken, JsIntText(Int(seed)));
            var b := ReplaceAll(a, WidthToken, JsIntText(width));
            var c := ReplaceAll(b, HeightToken, JsIntText(height));
            !Contains(c, SeedToken) && !Contains(c, WidthToken) && !Contains(c, HeightToken)
  {
    var a := ReplaceAll(text, SeedToken, JsIntText(Int(seed)));
    var b := ReplaceAll(a, WidthToken, JsIntText(width));
    NumberTextAvoids(Int(seed), SeedToken);
    NumberTextAvoids(width, SeedToken);
    NumberTextAvoids(width, WidthToken);
    NumberTextAvoids(height, SeedToken);
    NumberTextAvoids(height, WidthToken);
    NumberTextAvoids(height, HeightToken);
    ReplaceAllRemovesToken(text, SeedToken, JsIntText(Int(seed)));
    ReplaceAllKeepsAbsent(a, WidthToken, JsIntText(width), SeedToken);
    ReplaceAllRemovesToken(a, WidthToken, JsIntText(width));
    ReplaceAllKeepsAbsent(b, HeightToken, JsIntText(height), SeedToken);
    ReplaceAllKeepsAbsent(b, HeightToken, JsIntText(height), WidthToken);
    ReplaceAllRemovesToken(b, HeightToken, JsIntText(height));
  }

  lemma AbsentByChar(s: string, t: string, j: nat)
    requires j < |t| && t[j] !in s
    ensures !Contains(s, t)
  {
    forall k | 0 <= k <= |s|
      ensures !OccursAt(s, t, k)
    {
      if k + |t| <= |s| {
        assert s[k..k + |t|][j] == s[k + j];
        assert s[k + j] in s;
      }
    }
  }

  lemma EscapeContextPlain(context: string)
    requires forall i :: 0 <= i < |context| ==> !IsBreak(context[i]) && context[i] != '"'
    ensures EscapeContext(context) == context
    decreases |context|
  {
    CollapsePlainPrefix(context, "");
    assert context + "" == context;
    EscapeQuotesPlain(context);
  }

  lemma {:induction false} EscapeQuotesPlain(s: string)
    requires '"' !in s
    ensures EscapeQuotes(s) == s
  {
    if |s| > 0 {
      EscapeQuotesPlain(s[1..]);
      assert [s[0]] + s[1..] == s;
    }
  }

  /** The token substitution leaves the context token untouched for the
      first three passes and lets the fourth put the given text in its place. */
  lemma ResolveBareContextToken(seed: string, width: string, height: string, context: string)
    requires NoPatterns(context)
    ensures ResolveTokens(ContextToken, seed, width, height, context) == context
  {
    AbsentByChar(ContextToken, SeedToken, 1);
    AbsentByChar(ContextToken, WidthToken, 1);
    AbsentByChar(ContextToken, HeightToken, 1);
    ReplaceAllAbsent(ContextToken, SeedToken, seed);
    ReplaceAllAbsent(ContextToken, WidthToken, width);
    ReplaceAllAbsent(ContextToken, HeightToken, height);
    ExpandPlain(context, ContextToken, "", "");
    assert ContextToken[0..|ContextToken|] == ContextToken;
    assert ReplaceFrom(ContextToken, ContextToken, context, |ContextToken|) == "";
    assert context + "" == context;
  }

  /** The context pass comes last, so a context that mentions a token puts
      it back into the resolved text. */
  lemma ContextCanCarryToken(seed: string, width: string, height: string)
    ensures ResolveTokens(ContextToken, seed, width, height, EscapeContext(SeedToken)) == SeedToken
    ensures Contains(ResolveTokens(ContextToken, seed, width, height, EscapeContext(SeedToken)), SeedToken)
  {
    EscapeContextPlain(SeedToken);
    ResolveBareContextToken(seed, width, height, SeedToken);
    ContainsMiddle("", SeedToken, "");
    assert "" + SeedToken + "" == SeedToken;
  }

  /** The text around the context placeholder in the splice example below:
      its only `S` is the one after the first `$`, so it holds no seed token. */
  lemma NoSeedTokenInSplice()
    ensures !Contains("$Se" + ContextToken + "ed$", SeedToken)
  {
    var s := "$Se" + ContextToken + "ed$";
    assert 'S' !in s[2..];
    forall k | 0 <= k <= |s|
      ensures !OccursAt(s, SeedToken, k)
    {
      if k + |SeedToken| <= |s| {
        if k == 0 {
          assert s[k..k + |SeedToken|][3] == s[3] != SeedToken[3];
        } else {
          assert s[k + 1] == s[2..][k - 1];
          assert s[k..k + |SeedToken|][1] == s[k + 1] != SeedToken[1];
        }
      }
    }
  }

  /** An empty context can splice a placeholder together: the context pass
      runs last, so removing the context placeholder from between `$Se` and
      `ed$` leaves a seed placeholder that no pass replaces. */
  lemma EmptyContextSplicesToken(seed: string, width: string, height: string)
    ensures ResolveTokens("$Se" + ContextToken + "ed$", seed, width, height, "") == SeedToken
  {
    var s := "$Se" + ContextToken + "ed$";
    NoSeedTokenInSplice();
    AbsentByChar(s, WidthToken, 1);
    AbsentByChar(s, HeightToken, 1);
    ReplaceAllAbsent(s, SeedToken, seed);
    ReplaceAllAbsent(s, WidthToken, width);
    ReplaceAllAbsent(s, HeightToken, height);
    var n := |ContextToken|;
    assert s[3..3 + n] == ContextToken;
    assert s[3 + n..] == "ed$";
    assert ReplaceFrom(s, ContextToken, "", 3 + n) == "ed$";
    assert ReplaceFrom(s, ContextToken, "", 3) == "ed$";
    assert s[2..2 + n][1] == s[3] != ContextToken[1];
    assert ReplaceFrom(s, ContextToken, "", 2) == "eed$";
    assert s[1..1 + n][0] == s[1] != ContextToken[0];
    assert ReplaceFrom(s, ContextToken, "", 1) == "Seed$";
    assert s[0..n][1] == s[1] != ContextToken[1];
    assert ReplaceFrom(s, ContextToken, "", 0) == "$Seed$";
  }

  /** Replacement strings are patterns: a context of `$&` puts the matched
      token itself back. */
  lemma DollarPatternInContext()
    ensures ReplaceAll(ContextToken, ContextToken, "$&") == ContextToken
  {
  }

  // ---------------------------------------------------------------------
  // Reference-image rewrite
  // ---------------------------------------------------------------------

  /** `node.inputs && node.inputs.image === '$CharImage$'`. */
  predicate HasMarkerImage(node: Json)
    ensures HasMarkerImage(node) ==>
      && node.JObj?
      && exists i :: && 0 <= i < |node.members|
                     && node.members[i].0 == "inputs"
                     && node.members[i].1.JObj?
                     && ("image", JStr(ImageMarker)) in node.members[i].1.members
  {
    && node.JObj?
    && Get(node.members, "inputs").Some?
    && Get(node.members, "inputs").value.JObj?
    && Get(Get(node.members, "inputs").value.members, "image") == Some(JStr(ImageMarker))
  }

  /** `node.inputs.image = name` on a node whose image input is the marker:
      only that field changes, and no member is added or removed. */
  function SetImage(node: Json, name: string): (r: Json)
    requires HasMarkerImage(node)
    ensures r.JObj? && |r.members| == |node.members|
    ensures forall i :: 0 <= i < |r.members| ==> r.members[i].0 == node.members[i].0
    ensures forall k :: k != "inputs" ==> Get(r.members, k) == Get(node.members, k)
    ensures Get(r.members, "inputs").Some? && Get(r.members, "inputs").value.JObj?
    ensures var ins := Get(node.members, "inputs").value.members;
            var ins' := Get(r.members, "inputs").value.members;
            && |ins'| == |ins|
            && (forall i :: 0 <= i < |ins| ==> ins'[i].0 == ins[i].0)
            && Get(ins', "image") == Some(JStr(name))
            && (forall k :: k != "image" ==> Get(ins', k) == Get(ins, k))
  {
    var ins := Get(node.members, "inputs").value.members;
    JObj(Put(node.members, "inputs", JObj(Put(ins, "image", JStr(name)))))
  }

  /** The marker in the image input always shows in the node's serialised
      form, so the `includes` test of the script never rejects a node the
      field test accepts. */
  lemma MarkerImageIsSerialised(node: Json)
    requires HasMarkerImage(node)
    ensures Contains(Stringify(node), ImageMarker)
  {
    var ms := node.members;
    var ins := Get(ms, "inputs").value;
    var i := GetWitness(ms, "inputs");
    var j := GetWitness(ins.members, "image");
    StringifyShowsMember(ms, i);
    StringifyShowsMember(ins.members, j);
    MarkerSerialisesVerbatim();
    ContainsTransitive(Stringify(node), Stringify(ins), Stringify(JStr(ImageMarker)));
    ContainsTransitive(Stringify(node), Stringify(JStr(ImageMarker)), ImageMarker);
  }

  lemma MarkerSerialisesVerbatim()
    ensures Contains(Stringify(JStr(ImageMarker)), ImageMarker)
  {
    EscapeStringPlain(ImageMarker);
    ContainsMiddle("\"", ImageMarker, "\"");
  }

  /** One iteration of the `for (const key in workflow)` loop. */
  function RewriteNode(node: Json, name: string): (r: Json)
    ensures r == if HasMarkerImage(node) then SetImage(node, name) else node
  {
    if Contains(Stringify(node), ImageMarker) then
      if HasMarkerImage(node) then SetImage(node, name) else node
    else
      if HasMarkerImage(node) then MarkerImageIsSerialised(node); node else node
  }

  /** The loop over the top-level entries of the parsed workflow. A parsed
      array is walked by index; any other value has no entry to visit. */
  function RewriteImages(wf: Json, name: string): (r: Json)
    ensures wf.JObj? ==> r.JObj? && |r.members| == |wf.members|
    ensures wf.JObj? ==> forall i :: 0 <= i < |wf.members| ==>
      && r.members[i].0 == wf.members[i].0
      && r.members[i].1 == (if HasMarkerImage(wf.members[i].1) then SetImage(wf.members[i].1, name) else wf.members[i].1)
    ensures wf.JArr? ==> r.JArr? && |r.items| == |wf.items|
    ensures wf.JArr? ==> forall i :: 0 <= i < |wf.items| ==>
      r.items[i] == (if HasMarkerImage(wf.items[i]) then SetImage(wf.items[i], name) else wf.items[i])
    ensures !wf.JObj? && !wf.JArr? ==> r == wf
  {
    match wf
    case JObj(ms) => JObj(seq(|ms|, i requires 0 <= i < |ms| => (ms[i].0, RewriteNode(ms[i].1, name))))
    case JArr(items) => JArr(seq(|items|, i requires 0 <= i < |items| => RewriteNode(items[i], name)))
    case _ => wf
  }

  /** A rewritten node no longer carries the marker, so rewriting again
      changes nothing (when the stored name is not the marker itself). */
  lemma RewriteImagesIdempotent(wf: Json, name: string)
    requires name != ImageMarker
    ensures RewriteImages(RewriteImages(wf, name), name) == RewriteImages(wf, name)
  {
    var once := RewriteImages(wf, name);
    match wf
    case JObj(ms) =>
      forall i | 0 <= i < |ms|
        ensures !HasMarkerImage(once.members[i].1)
      {
      }
      assert RewriteImages(once, name).members == once.members;
    case JArr(items) =>
      forall i | 0 <= i < |items|
        ensures !HasMarkerImage(once.items[i])
      {
      }
      assert RewriteImages(once, name).items == once.items;
    case _ =>
  }

  /** `charImageName && settings.uploadCharImg`. */
  predicate ImageGate(charImageName: Option<string>, uploadCharImg: bool)
    ensures ImageGate(charImageName, uploadCharImg) <==>
      uploadCharImg && charImageName.Some? && Truthy(JStr(charImageName.value))
  {
    charImageName.Some? && charImageName.value != "" && uploadCharImg
  }

  datatype TemplateError = SyntaxError

  /** True when `after` is `before` with, at most, the image inputs of some
      top-level nodes set to `name`: the node ids and their order are kept. */
  predicate SameNodes(before: Json, after: Json, name: string) {
    && (before.JObj? ==>
          && after.JObj? && |after.members| == |before.members|
          && forall i :: 0 <= i < |before.members| ==>
               && after.members[i].0 == before.members[i].0
               && (after.members[i].1 == before.members[i].1
                   || (HasMarkerImage(before.members[i].1) && after.members[i].1 == SetImage(before.members[i].1, name))))
    && (before.JArr? ==>
          && after.JArr? && |after.items| == |before.items|
          && forall i :: 0 <= i < |before.items| ==>
               after.items[i] == before.items[i]
               || (HasMarkerImage(before.items[i]) && after.items[i] == SetImage(before.items[i], name)))
    && (!before.JObj? && !before.JArr? ==> after == before)
  }

  /** `processWorkflow(workflowStr, context, charImageName)`. The random draw
      `u`, the width and height settings, the upload flag and `JSON.parse`
      are parameters. A parse failure is returned as the error it throws. */
  function ProcessWorkflow(workflowStr: string, context: string, charImageName: Option<string>,
                           u: real, width: JsInt, height: JsInt, uploadCharImg: bool,
                           parse: string -> Option<Json>): (r: Result<Json, TemplateError>)
    requires 0.0 <= u < 1.0
    ensures var processed := ResolveTokens(workflowStr, JsIntText(Int(SeedFromRandom(u))), JsIntText(width),
                                           JsIntText(height), EscapeContext(context));
      && (r.Failure? <==> parse(processed).None?)
      && (r.Success? ==> SameNodes(parse(processed).value, r.value, if ImageGate(charImageName, uploadCharImg) then charImageName.value else ""))
      && (r.Success? && !ImageGate(charImageName, uploadCharImg) ==> r.value == parse(processed).value)
      && (r.Success? && ImageGate(charImageName, uploadCharImg) ==>
            r.value == RewriteImages(parse(processed).value, charImageName.value))
  {
    var seed := SeedFromRandom(u);
    var safeContext := EscapeContext(context);
    var processed := ResolveTokens(workflowStr, JsIntText(Int(seed)), JsIntText(width), JsIntText(height), safeContext);
    match parse(processed)
    case None => Failure(SyntaxError)
    case Some(wf) =>
      if ImageGate(charImageName, uploadCharImg) then Success(RewriteImages(wf, charImageName.value))
      else Success(wf)
  }
}

=== FILE: wrappers.dfy ===
/** Failure-carrying values used where the script returns `null` or throws. */
module Wrappers {

  /** A value that may be absent (`null` / `undefined` in the script). */
  datatype Option<+T> = None | Some(value: T)

  /** Either a computed value or the error that a `throw` would carry. */
  datatype Result<+R, +E> = Success(value: R) | Failure(error: E)
}
